=== FILE: README.md ===
# Crossword page and submission function, modelled in Dafny

A model of the logic of a browser crossword and of the serverless function
that accepts its entries. The model covers the following parts.

- **Shipped page (`dist/js/main.js`).**
  - Puzzle load: Y is flipped against row 11 and directions are lower-cased.
  - Which words contain a grid point.
  - The click state machine: the active word, the last clicked point, and cycling through the words at an intersection.
  - The highlight set.
  - Cursor movement bounded by the active word, and the keys that use it.
  - The answer map: the input filter, upper-casing, deletion, clearing, and the copy kept in browser storage.
  - The solution word read from seven fixed points.
  - The percentage the check and submit buttons compute.
- **Older page (`static/js/main.js`).** Words list their own points and the cursor moves by position in that list. The older input, backspace, start-up, solution check, submit gate and fixed-total percentage are modelled too.
- **Submission function (`netlify/functions/submit.js`).** The rate limiter keeps two maps, from client address and from lower-cased e-mail to a time, with 24-hour pruning. The handler checks in this order: method, body, required fields, rate limit, ticket, record.

The modules follow that structure:

- `Text`: ASCII case mapping and JavaScript `trim`.
- `Grid`, `Answers`, `Highlight`, `Navigation`, `Checking` and `Session`: the shipped page. `Session` is the whole page as one event-driven state machine.
- `Legacy`: the older page.
- `RateLimit`: the submission function.
- `Wrappers` and `Arith`: small helpers.

Inputs the code reads from the outside world become parameters:

- the confirmation dialog's answer;
- the clock: `now`, and `recordedAt` for the second read of `Date.now`;
- whether ticket creation succeeded: `ticketOk`;
- the stored text: a `Slot` that is empty, a stored map, or text that does not parse.

## Model

| member | source | states |
|---|---|---|
| Text.UpperChar | dist/js/main.js:107 | a lower-case ASCII letter becomes the upper-case letter at the same place in the alphabet; every other character is left alone |
| Text.LowerChar | netlify/functions/submit.js:71 | an upper-case ASCII letter becomes the lower-case letter at the same place in the alphabet; every other character is left alone |
| Text.CaseInverse | dist/js/main.js:107 | the two case mappings undo each other on letters, and each agrees with the other's round trip |
| Text.Upper | dist/js/main.js:107 | `toUpperCase` keeps the length and maps each character independently |
| Text.Lower | dist/js/main.js:39 | `toLowerCase` keeps the length and maps each character independently |
| Text.UpperIdempotent | dist/js/main.js:302-303 | upper-casing an answer that input already upper-cased changes nothing |
| Text.LowerIdempotent | netlify/functions/submit.js:71 | lower-casing the already lower-cased e-mail a second time changes nothing |
| Text.UpperAppend | dist/js/main.js:332 | upper-casing the joined attempt is joining the upper-cased entries |
| Text.Trim | netlify/functions/submit.js:110 | `trim` yields the infix left after cutting a blank stretch from each end; it neither starts nor ends with white space, and is empty exactly when the string is all white space |
| Text.LowerTrim | netlify/functions/submit.js:119 | trimming then lower-casing equals lower-casing then trimming |
| Text.TrimIdempotent | netlify/functions/submit.js:119 | a trimmed string trims to itself |
| Grid.FlipYInvolution | dist/js/main.js:33 | the row flip `11 - y` undone by itself |
| Grid.LoadCell | dist/js/main.js:30-34 | a loaded cell keeps x, letter and blocked flag, and its y and the raw y sum to 11 |
| Grid.LoadWord | dist/js/main.js:35-40 | a loaded word keeps number, start x and length; its start y and the raw one sum to 11; its direction is the lower-cased raw direction |
| Grid.Load | dist/js/main.js:29-41 | every cell and every word is loaded, in the same order and the same number |
| Grid.LoadTwice | dist/js/main.js:29-40 | loading twice gives back the raw cells, and the raw words with only the direction lower-cased, so the flip must run once |
| Grid.LoadRecognisesAcross | dist/js/main.js:39 | any spelling of "across" by case is recognised once loaded |
| Grid.CellAt | dist/js/main.js:164 | the selector lookup finds a cell of the grid at exactly that point, and none only when no cell is there |
| Grid.LoadKeepsCellAt | dist/js/main.js:30-34 | after loading, the cell at a flipped point is the loaded form of the raw cell at the original point |
| Grid.WordCells | dist/js/main.js:191-209 | a word walks `length` points from its start, the i-th one i steps along its direction |
| Grid.InWordIffWalked | dist/js/main.js:281-287 | the span test holds exactly for the points the word walks |
| Grid.LoadedSpanInRawRows | dist/js/main.js:170-176 | in the data's bottom-origin rows a loaded down word covers its start row and the `length - 1` rows below it |
| Grid.WordsAt | dist/js/main.js:170-176 | the words at a point are exactly the puzzle's words whose span holds it, in the puzzle's order |
| Grid.TotalCells | dist/js/main.js:290-292 | the total is the number of positions whose cell is fillable; so it is zero exactly when no cell is fillable and all cells exactly when all are |
| Grid.IndexCountStep | dist/js/main.js:290-292 | a count of positions grows by one exactly when the next position qualifies |
| Answers.Permitted | dist/js/main.js:99-103 | an event without data passes; one with data passes exactly when it is one character of the alphabet |
| Answers.AsciiFilter | dist/js/main.js:100 | with `[A-Za-z]`, a typed character passes exactly when it is an ASCII letter; Ä, Ö and Å are refused |
| Answers.Hydrate | dist/js/main.js:14-23 | a stored map is restored; an absent or unparsable copy gives the empty map and an empty slot; either way storage mirrors the answers |
| Answers.HydrateStored | dist/js/main.js:14-18 | a saved map reloads as itself |
| Answers.OnInput | dist/js/main.js:105-124 | a non-empty value is stored upper-cased and an empty one removes the entry; other entries are untouched; storage mirrors the map |
| Answers.OnInputKeepsWellFormed | dist/js/main.js:99-109 | input the filter admits keeps every entry one upper-case letter |
| Answers.InputThenErase | dist/js/main.js:105-124 | typing and then emptying a cell leaves the map less that cell's entry |
| Answers.OnClear | dist/js/main.js:343-361 | a confirmed clear empties the map and the stored copy; a declined one changes nothing |
| Highlight.FindIndex | dist/js/main.js:186 | the position found holds the sought number and no earlier position does; -1 when none does |
| Highlight.Click | dist/js/main.js:169-211 | a point in no word changes nothing; otherwise the chosen word is a puzzle word containing the point and the point is remembered; the first word is chosen on a new point or a single word |
| Highlight.Choose | dist/js/main.js:178-188 | with words at the point, the choice is one of them and the point is remembered |
| Highlight.FindIndexDistinct | dist/js/main.js:186 | with distinct numbers the lookup finds a word at its own position |
| Highlight.ChooseAgain | dist/js/main.js:184-188 | a repeat click on the active word's point moves to the next word there, wrapping round |
| Highlight.RepeatChoosesAmongSameWords | dist/js/main.js:170-188 | repeated clicks on one point choose among the same words every time |
| Highlight.ChoicesAdvance | dist/js/main.js:184-188 | k repeat choices walk k places along the words |
| Highlight.RepeatedClicksCycle | dist/js/main.js:180-188 | k repeat clicks from the i-th word at a point reach word `(i + k) mod n` |
| Highlight.ChoicesCycle | dist/js/main.js:184-188 | a multiple of n repeat choices returns to the starting word |
| Highlight.FullCycleRestores | dist/js/main.js:180-188 | clicking an intersection n times, or any multiple of n, brings back the word the clicks started from |
| Highlight.MarkWord | dist/js/main.js:190-209 | the marked points are exactly the active word's points that have a cell, less the clicked one |
| Highlight.HandleClick | dist/js/main.js:153-212 | the clicked cell is selected when it exists; the highlight is empty at a point in no word, and otherwise is the active word's cells less the clicked point, which lies in that word |
| Navigation.FindNextCell | dist/js/main.js:214-233 | none without a word or at or past the word's far end; otherwise the grid's own cell one step along the direction, present exactly when the grid has one there |
| Navigation.FindPrevCell | dist/js/main.js:235-254 | none without a word or at or before the word's start; otherwise the grid's own cell one step back, present exactly when the grid has one there |
| Navigation.NextStaysInWord | dist/js/main.js:220-232 | from a point of the word, the next cell stays in the word and there is none after its last point |
| Navigation.PrevStaysInWord | dist/js/main.js:241-253 | from a point of the word, the previous cell stays in the word and there is none before its first point |
| Navigation.NextThenPrev | dist/js/main.js:214-254 | forward then back returns to the cell the cursor was on |
| Navigation.PrevThenNext | dist/js/main.js:214-254 | back then forward returns to the cell the cursor was on |
| Navigation.NextIgnoresRow | dist/js/main.js:220-225 | only the far end is checked, so a cursor off an across word's row still moves, to a cell outside the word |
| Navigation.FocusOn | dist/js/main.js:274-277 | focus goes only to a cell that has a text input |
| Navigation.KeyTarget | dist/js/main.js:256-279 | the right arrow moves forward; the left arrow and Backspace on an empty input move back; other keys leave focus alone |
| Checking.Entry | dist/js/main.js:329 | a missing or empty entry reads as the padding |
| Checking.Attempt | dist/js/main.js:363-367 | with empty padding the joined attempt is no longer than the entries together |
| Checking.SpellsIffEveryLetterMatches | dist/js/main.js:363-370 | with single-character entries the attempt spells the word exactly when every point holds the matching letter, ignoring case |
| Checking.AllMatchSpells | dist/js/main.js:324-332 | when every point matches, the attempt spells the word whatever the padding |
| Checking.SolutionWordIffLetters | dist/js/main.js:363-370 | the solution check holds exactly when each of the seven points holds its letter of SINAPPI, so a partly filled word never passes |
| Checking.SpacePaddingAgrees | dist/js/main.js:324-332 | padding missing letters with a blank decides the same as padding with nothing |
| Checking.CorrectCount | dist/js/main.js:455-466 | the count is the number of positions whose cell is fillable and answered correctly; it never exceeds the total, and equals it exactly when every fillable cell is answered correctly |
| Checking.CorrectCountAsWritten | dist/js/main.js:297-307 | the check button's count is the number of positions whose cell is not blocked and answered correctly, whatever its letter; so it is bounded only by the number of cells |
| Checking.Percent | dist/js/main.js:309 | on exact rationals: none for a zero total; otherwise the nearest integer to `100 * correct / total`, halves up, within 0..100 when the count is at most the total |
| Checking.PercentExactHalf | dist/js/main.js:309 | an exact half rounds up: 23 of 40 reads as 58 |
| Checking.CheckReport | dist/js/main.js:455-468 | the corrected check-button report, counting as the submit handler does: with a positive total the percentage lies in 0..100 and is 100 when every fillable cell is right; the solution verdict is the solution check |
| Checking.PercentFull | dist/js/main.js:468 | a full count reads as 100 % |
| Checking.RoundedHundredNotFull | dist/js/main.js:309 | 199 correct of 200 also reads as 100 % |
| Checking.AsWrittenCountExceedsTotal | dist/js/main.js:298-309 | as written, one non-blocked cell with an empty letter and one answered cell read as 200 % |
| Checking.AsWrittenAgreesOnSpaceBlanks | dist/js/main.js:300-307 | when no blank-lettered open cell reads as correct, the two counts agree |
| Session.Start | dist/js/main.js:9-23 | start-up restores the stored answers, with nothing highlighted or focused and submission disabled |
| Session.Step | dist/js/main.js:99-361 | each event does what its handler does, and every event keeps the stored copy mirroring the answers. A click on an input cell runs the click machine and focuses it. Typing stores or deletes at the focused cell and a letter moves focus along the word. A key moves focus to the arrow or Backspace target, and nothing else. Clicks, typing and keys leave the submit button alone. A confirmed clear empties and disables submission. The check button enables submission exactly on a right solution word |
| Session.RunKeepsStoredCopy | dist/js/main.js:105-124 | after any run of events, reloading restores exactly the answers left |
| Session.TypeOne | dist/js/main.js:105-119 | one letter typed at point k of the active word is stored upper-cased there and focus moves to point k + 1, or stays on the last point |
| Session.TypingFillsWord | dist/js/main.js:105-124 | typing letters from point k writes them upper-cased along the word, keeps the active word, and leaves focus after the last letter or on the word's last point |
| Session.TypingFillsWordPointwise | dist/js/main.js:105-119 | after typing along a word, the i-th letter is on point k + i and every other point keeps its answer |
| Session.Submit | dist/js/main.js:372-485 | a payload is sent exactly when the solution word is right and name, e-mail and phone are non-empty; it carries the contact, the percentage of the corrected check (rounded on exact rationals) and the solution letters with blanks for missing ones |
| Session.SentWordIsSolution | dist/js/main.js:481-483 | with one letter per answer, a sent solution word spells SINAPPI, ignoring case |
| Session.FilteredRunWellFormed | dist/js/main.js:99-110 | in a session fed only filtered input, every answer stays one upper-case letter |
| Session.CheckThenClear | dist/js/main.js:310-361 | after the check button submission is enabled exactly on a right solution word; a confirmed clear then disables it and the word no longer checks |
| Legacy.LoadLegacyWord | static/js/main.js:34-38 | an older word's start y and its raw start y sum to 11; direction and point list are left alone |
| Legacy.LegacyLoad | static/js/main.js:29-38 | every cell and every word is loaded in order |
| Legacy.WordsThrough | static/js/main.js:123-125 | the words through a point are exactly those listing it, in the puzzle's order |
| Legacy.LoadedCellMissesItsWord | static/js/main.js:29-38 | the point lists are not flipped, so a loaded cell is not found in the word that lists its raw point |
| Legacy.ActiveIndex | static/js/main.js:139-145 | the position found passes the toggle's prefix test and no earlier one does |
| Legacy.LegacyClick | static/js/main.js:118-156 | a first click ever where several words meet throws; a point in no word changes nothing; otherwise the chosen word lists the point and the point is remembered; a new point or a single word chooses the first |
| Legacy.LegacyChoose | static/js/main.js:127-147 | a click that completes chooses one of the words at the point |
| Legacy.LegacyRepeatClick | static/js/main.js:134-147 | among prefix-free words, a repeat click moves from word i to word `(i + 1) mod n` |
| Legacy.RepeatChoiceMovesOn | static/js/main.js:139-146 | the same once the words at the point are known |
| Legacy.ActiveIndexFinds | static/js/main.js:139-145 | among prefix-free non-empty lists the toggle's test finds the active word where it stands |
| Legacy.LegacyTwoWordsAlternate | static/js/main.js:134-147 | repeat clicks where two prefix-free words cross alternate between them |
| Legacy.IndexOf | static/js/main.js:165-167 | the first position of the point in the list, or -1 exactly when it is not listed |
| Legacy.LegacyNext | static/js/main.js:158-176 | none without a word, off the list or at its last entry; otherwise the cell at the next listed point, and on a list without repeats, from the j-th listed point exactly the cell at point j + 1 |
| Legacy.LegacyPrev | static/js/main.js:178-196 | none off the list or at its first entry; otherwise the cell at the previous listed point, and on a list without repeats, from the j-th listed point exactly the cell at point j - 1 |
| Legacy.LegacyNextThenPrev | static/js/main.js:158-196 | along a list without repeats, forward then back returns to the cursor's cell |
| Legacy.LegacyPrevThenNext | static/js/main.js:158-196 | along a list without repeats, back then forward returns to the cursor's cell |
| Legacy.ListNextAgreesWithSpan | static/js/main.js:158-176 | on a point of the word, moving forward by list position agrees with the shipped page's span movement |
| Legacy.ListPrevAgreesWithSpan | static/js/main.js:178-196 | on a point of the word, moving back by list position agrees with the shipped page's span movement |
| Legacy.SpanNeighbour | dist/js/main.js:214-254 | the span moves from offset i to the cells at offsets i + 1 and i - 1, stopping at the word's ends |
| Legacy.ListStopsOffWord | static/js/main.js:165-171 | off the word the list stops while the span test still moves |
| Legacy.LegacyInput | static/js/main.js:198-225 | a non-empty value stores its first character upper-cased and an empty one removes the entry; other entries are untouched; storage mirrors the map |
| Legacy.LegacyInputAgreesOnSingle | static/js/main.js:198-225 | on at most one character the older input stores what the shipped one stores |
| Legacy.LegacyInputKeepsShort | static/js/main.js:203-204 | the older input keeps every entry at most one character |
| Legacy.LegacyInputFocus | static/js/main.js:211-218 | after a non-empty value focus goes to the next listed cell if there is one; after an empty value it stays; it moves only between points of the active word's list |
| Legacy.BackspaceAsWritten | static/js/main.js:227-241 | as written: Backspace on an empty input focuses the previous listed cell that has an input, if any, and empties that input, but writes `''` under the current cell's key; every other input keeps its text; other keys change nothing |
| Legacy.BackspaceKeepsErasedLetter | static/js/main.js:233-236 | as written, the emptied input's answer is unchanged |
| Legacy.BackspaceLeavesStaleAnswer | static/js/main.js:227-241 | an `A` before an empty cell: after Backspace the first input is empty yet its answer is still `A` |
| Legacy.BackspaceCorrected | static/js/main.js:227-241 | corrected: Backspace on an empty input focuses the previous listed cell that has an input, if any; only that input and its answer are emptied, every other input and answer is kept, and storage mirrors the map |
| Legacy.BackspaceKeepsInSync | static/js/main.js:227-241 | the corrected handler keeps every input showing its stored answer |
| Legacy.EmptyEntryReadsMissing | static/js/main.js:331-341 | an entry of `''` reads as a missing one in every joined attempt |
| Legacy.LegacyStart | static/js/main.js:14-21 | the stored map is restored and storage then always cleared; text that does not parse stops the script |
| Legacy.LegacyReloadForgets | static/js/main.js:14-21 | two reloads without input lose the answers |
| Legacy.LegacyCheckSolutionWord | static/js/main.js:331-342 | the older solution check decides as the shipped one |
| Legacy.LegacyGateAgrees | static/js/main.js:344-353 | while entries are at most one character, the blank-padded submit gate opens exactly when the solution check passes |
| Legacy.LegacySubmit | static/js/main.js:344-445 | the whole map is logged with the three-field contact exactly when the gate opens and name, e-mail and phone are non-empty |
| Legacy.LegacyCheckPercent | static/js/main.js:252-266 | with at most 106 counted cells the fixed-total percentage lies in 0..100 |
| Legacy.LegacyPercentFull | static/js/main.js:255-266 | on a 106-cell grid fully and correctly answered, with no blank-lettered open cell read as correct, the older check shows 100 % |
| RateLimit.Prune | netlify/functions/submit.js:52-63 | exactly the entries older than a day before `now` go; the rest keep their times |
| RateLimit.PruneIdempotent | netlify/functions/submit.js:52-63 | pruning twice at one time is pruning once |
| RateLimit.CheckRateLimit | netlify/functions/submit.js:48-78 | the check only prunes; a recorded address is refused before a recorded lower-cased e-mail; allowed exactly when neither blocks |
| RateLimit.Record | netlify/functions/submit.js:81-85 | both the address and the lower-cased e-mail are set to the time; every other entry is unchanged |
| RateLimit.RecordedIpRefused | netlify/functions/submit.js:65-68 | a recorded address is refused for a day |
| RateLimit.RecordedEmailRefused | netlify/functions/submit.js:70-74 | a recorded e-mail, in any case, is refused for a day from an address not on record |
| RateLimit.RecordExpires | netlify/functions/submit.js:49-63 | more than a day later both records are gone |
| RateLimit.ClientIp | netlify/functions/submit.js:102-105 | the first non-empty forwarding header, else the source address, else `unknown`; it throws only when both headers are empty and there is no request context |
| RateLimit.NormEmail | netlify/functions/submit.js:119 | the limiter's e-mail key is the trimmed e-mail with each character lower-cased, so lower-casing it again changes nothing |
| RateLimit.OtherEmailAllowed | netlify/functions/submit.js:65-85 | in a fresh instance the first admitted submission with a ticket is accepted; after it, another address with an e-mail that differs after trimming and lower-casing is allowed and, with a ticket, created |
| RateLimit.OnlyRecordBlocks | netlify/functions/submit.js:65-74 | a state holding one address and one e-mail refuses neither another address nor another lower-cased e-mail |
| RateLimit.FirstAccepted | netlify/functions/submit.js:88-192 | in a fresh instance an admitted submission with a ticket is created and leaves exactly its own address and e-mail on record |
| RateLimit.AllowedIsCreated | netlify/functions/submit.js:88-192 | an admitted request the rate limit lets through is created when the ticket succeeds |
| RateLimit.CheckField | netlify/functions/submit.js:110 | a field is missing exactly when falsy or blank, and throws exactly when a truthy non-string |
| RateLimit.CheckFields | netlify/functions/submit.js:108-116 | the first missing field in the order name, e-mail, phone is reported; all present only when each is |
| RateLimit.AfterFields | netlify/functions/submit.js:118-174 | created exactly when the rate limit allows and the ticket succeeds; 429 exactly when refused, with the reason; only a created ticket records, otherwise only the pruning remains |
| RateLimit.Handle | netlify/functions/submit.js:88-192 | a non-POST is refused with nothing changed; a body that does not parse, a missing request context, or a field whose `trim` throws reaches the catch and gives 500 with nothing changed; 400 leaves the state and names a required field; a created ticket needs all fields present; a failure leaves the state or its pruning |
| RateLimit.AdmittedReachesLimit | netlify/functions/submit.js:97-126 | a POST with a parsed body, a client address and all fields goes on to the limit and the ticket |
| RateLimit.FirstMissingFieldNamed | netlify/functions/submit.js:108-116 | a missing name is reported whatever the other fields hold, state unchanged |
| RateLimit.SecondMissingFieldNamed | netlify/functions/submit.js:108-116 | with a name, a missing e-mail is reported, state unchanged |
| RateLimit.ThirdMissingFieldNamed | netlify/functions/submit.js:108-116 | with name and e-mail, a missing phone is reported, state unchanged |
| RateLimit.FailedTicketRecordsNothing | netlify/functions/submit.js:167-174 | a failed ticket leaves only the pruning behind |
| RateLimit.SecondFromSameIpRefused | netlify/functions/submit.js:120-126 | after an accepted submission, another from the same address within a day gets 429 for the address and records nothing |
| RateLimit.SecondWithSameEmailRefused | netlify/functions/submit.js:119-126 | the same e-mail in other case or with other blanks, from an address not on record, gets 429 for the e-mail within a day |
| RateLimit.NormEmailIgnoresCase | netlify/functions/submit.js:119 | e-mails equal ignoring case share a key |
| RateLimit.NormEmailIgnoresBlanks | netlify/functions/submit.js:119 | blanks around an e-mail do not change its key |

## Left out

- DOM construction, CSS positioning, focus timing through `requestAnimationFrame`, `alert` and the modal form are not modelled. These are presentation. The answer to `confirm` is a parameter.
- The puzzle `fetch`, the webhook `POST` with its timestamp, the Zoho token cache and ticket creation are not modelled. These are network I/O. Ticket success is the parameter `ticketOk`, and the two clock reads are `now` and `recordedAt`.
- `atob` is not modelled. The solution word is the constant it decodes to, `SINAPPI`.
- JSON is abstracted. Browser storage is a `Slot`, and the request body is either unparsable or its three fields.
- `organization` is not modelled. A truthy non-string value throws at submit.js line 137 after the rate check; that 500 is folded into `ticketOk`.
- Case mapping and `trim` are restricted to ASCII letters and the listed white space characters. Unicode case mapping is not modelled.
- The Y flip uses the constant row 11, as both pages do, rather than the largest Y present in the data. The two agree only when the data's top row is 11.
- A paste that bypasses the `beforeinput` filter is not modelled. `Session.FilteredRunWellFormed` assumes filtered input.
- The older click handler reads `cell.dataset` from a plain data object at static/js/main.js line 119. That throws on every click, so the older highlight never changes in practice. `Legacy.LegacyClick` models the handler as if the point were read from the cell. The later throw on a first click, at line 135, is modelled as `Crashed`.
- Highlight.FullCycleRestores: assumes the words at a point have distinct numbers, as the puzzle data numbers them. Without that, `findIndex` can stop at an earlier word.
- Legacy.LegacyRepeatClick: assumes no word's point list is a prefix of another's. The older toggle tests a prefix, so with such lists it can pick the wrong word.
- Checking.Attempt: its own contract bounds only the length. What the joined attempt spells is stated by `Checking.SpellsIffEveryLetterMatches` and `Checking.SpacePaddingAgrees`.
- Legacy.LegacyCheckPercent: its own contract gives only the 0..100 bound. When it reads 100 % is stated by `Legacy.LegacyPercentFull`.
- Checking.CheckReport: does not state the converse of "all right gives 100 %". Rounding shows 199 of 200 as 100 % (`Checking.RoundedHundredNotFull`).
- Checking.Percent: rounds the exact ratio, while the page rounds a double. Where `100 * correct / total` is exactly a half, the double can fall just below it. For 23 of 40 the page computes 57.49999999999999 and shows 57, while the model gives 58 (`Checking.PercentExactHalf`). For 29 of 200 the page shows 14 and the model 15. With the older page's fixed total of 106 no count gives an exact half, so `Legacy.LegacyCheckPercent` is not affected.
- Session.Submit: the payload's percentage is `Checking.Percent`'s, so it has the same gap at exact halves.
- Session.Submit: models the submit handler only. It is not an event of `Session.Step`, and it does not read `submitEnabled`. On the page a disabled button gets no click (dist/js/main.js lines 11, 313, 336 and 358), so after start-up nothing is sent until a check enables the button. `submitEnabled` records that gate for a caller to consult.
- Session.Step: clicking any button blurs the focused input, so on the page typing after a button goes nowhere until a cell is clicked. The model keeps `focus` across button events, so it also allows typing at the old cell. This over-approximates the page, and every invariant stated over runs still holds.
- RateLimit.CheckRateLimit: the stores are plain objects, and the model treats them as maps. An address or lower-cased e-mail that names an inherited member, such as `constructor` or `toString`, reads as truthy in the source and is refused on first use; the model allows it.
- RateLimit.Record: writing under `__proto__` replaces the object's prototype instead of adding an entry, so the source records nothing for that key; the model records it. Both stores also live only as long as one warm function instance, so separate or cold instances start empty.
- The end-to-end tests expect typing to run past a word's end and Finnish letters to be accepted. The code does neither, and the model follows the code.
- src/crossword.py, src/puzzle_data.py and src/zoho_integration.py are not part of this model. They are a file server, placeholder data and a second ticket client.

## Findings

| source | as written | input that shows it | evidently intended | confidence | as-written member | corrected member |
|---|---|---|---|---|---|---|
| dist/js/main.js:300-307 | the check button counts every non-blocked cell whose answer equals its letter, but the total counts only cells with a non-blank letter | a non-blocked cell with letter `""` and one answered cell `A`: count 2, total 1, shown as 200 % | count only the cells the total counts, as the submit handler does at lines 459-466 | not executed | Checking.AsWrittenCountExceedsTotal | Checking.CheckReport |
| static/js/main.js:227-240 | Backspace on an empty input empties the previous input but writes `''` under the current cell's key; the bug stays latent until the click handler's throw at line 119 is fixed, since no word is active before then | `A` in the first cell of a two-cell word, cursor in the empty second cell, Backspace: the first input is empty, yet its answer is still `A` | write `''` under the key of the cell that was emptied | not executed | Legacy.BackspaceLeavesStaleAnswer | Legacy.BackspaceKeepsInSync |

=== FILE: answers.dfy ===
/** The player's answers on the shipped page: a map from grid point to the
    entered text, the `beforeinput` filter, the `input` handler, the clear
    button and the copy kept in browser storage. */
module Answers {
  import opened Text
  import opened Wrappers
  import opened Grid

  /** `userAnswers`, keyed by `"x,y"`. */
  type AnswerMap = map<Coord, string>

  /** The alphabet the `beforeinput` filter admits. The page uses
      `[A-Za-z]`; `AsciiAlphabet` is that instance. */
  type Alphabet = char -> bool

  const AsciiAlphabet: Alphabet := IsAsciiLetter

  /** The `beforeinput` filter: an event without data (a deletion) passes,
      and an event with data passes only when the data is one character of
      the alphabet. */
  function Permitted(data: Option<string>, alphabet: Alphabet): (ok: bool)
    ensures data.Some? && data.value != "" ==>
      (ok <==> |data.value| == 1 && alphabet(data.value[0]))
    ensures data.None? || data.value == "" ==> ok
  {
    match data
    case None => true
    case Some(d) => d == "" || (|d| == 1 && alphabet(d[0]))
  }

  /** With the page's alphabet a typed character passes exactly when it is
      an ASCII letter: `Ä`, `Ö` and `Å` are refused. */
  lemma AsciiFilter(c: char)
    ensures Permitted(Some([c]), AsciiAlphabet) <==> ('A' <= c <= 'Z' || 'a' <= c <= 'z')
    ensures !Permitted(Some("\U{C4}"), AsciiAlphabet)
    ensures !Permitted(Some("\U{D6}"), AsciiAlphabet)
    ensures !Permitted(Some("\U{C5}"), AsciiAlphabet)
  {
  }

  /** The single key `localStorage` holds, abstracted over JSON: nothing
      stored (or the empty string), a stored map, or text that does not
      parse. */
  datatype Slot = Empty | Stored(answers: AnswerMap) | Corrupt

  /** The stored copy agrees with the answers: reloading the page would
      bring back exactly `m`. */
  predicate Mirrors(slot: Slot, m: AnswerMap) {
    match slot
    case Empty => m == map[]
    case Stored(saved) => saved == m
    case Corrupt => false
  }

  /** Start-up: restore the stored map; on a parse failure drop the stored
      text and start empty. */
  function Hydrate(slot: Slot): (r: (AnswerMap, Slot))
    ensures Mirrors(r.1, r.0)
    ensures slot.Stored? ==> r == (slot.answers, slot)
    ensures !slot.Stored? ==> r == (map[], Empty)
  {
    match slot
    case Empty => (map[], Empty)
    case Stored(saved) => (saved, slot)
    case Corrupt => (map[], Empty)
  }

  /** Saving and restoring reproduces the answers. */
  lemma HydrateStored(m: AnswerMap)
    ensures Hydrate(Stored(m)).0 == m
  {
  }

  /** The `input` handler of the cell at `at` when its input now holds
      `value`: a non-empty value is stored upper-cased, an empty one removes
      the entry, and the whole map is written to storage. */
  function OnInput(m: AnswerMap, at: Coord, value: string): (r: (AnswerMap, Slot))
    ensures Mirrors(r.1, r.0)
    ensures value != "" ==> at in r.0 && r.0[at] == Upper(value) && IsUpperCased(r.0[at])
    ensures value == "" ==> at !in r.0
    ensures forall k :: k != at ==> (k in r.0 <==> k in m) && (k in m ==> r.0[k] == m[k])
  {
    UpperIsUpperCased(value);
    var m' := if value != "" then m[at := Upper(value)] else m - {at};
    (m', Stored(m'))
  }

  /** What the input at `at` reads as: its entry, or nothing. */
  function Shown(m: map<Coord, string>, at: Coord): string {
    if at in m then m[at] else ""
  }

  /** Every entry is one upper-case ASCII letter. */
  predicate WellFormed(m: AnswerMap) {
    forall k :: k in m ==> |m[k]| == 1 && IsUpperAscii(m[k][0])
  }

  /** Input that passed the page's filter keeps the map well formed. */
  lemma OnInputKeepsWellFormed(m: AnswerMap, at: Coord, value: string)
    requires WellFormed(m)
    requires value == "" || (|value| == 1 && IsAsciiLetter(value[0]))
    ensures WellFormed(OnInput(m, at, value).0)
  {
  }

  /** Typing a letter and then emptying the cell leaves the map as it was,
      less the cell's old entry. */
  lemma {:induction false} InputThenErase(m: AnswerMap, at: Coord, value: string)
    ensures OnInput(OnInput(m, at, value).0, at, "").0 == m - {at}
  {
    var once := OnInput(m, at, value).0;
    var twice := OnInput(once, at, "").0;
    assert twice.Keys == (m - {at}).Keys;
  }

  /** The clear button after the confirmation dialog: when confirmed, the
      answers are emptied and the stored copy removed. */
  function OnClear(m: AnswerMap, slot: Slot, confirmed: bool): (r: (AnswerMap, Slot))
    ensures confirmed ==> r.0 == map[] && r.1 == Empty && Mirrors(r.1, r.0)
    ensures !confirmed ==> r == (m, slot)
  {
    if confirmed then (map[], Empty) else (m, slot)
  }
}

=== FILE: arith.dfy ===
/** Facts about Euclidean division that the percentage and the click cycle
    rest on. */
module Arith {
  lemma MulNonneg(a: int, b: int)
    requires a >= 0 && b >= 0
    ensures a * b >= 0
  {
  }

  /** Quotient and remainder are determined by any split of `a` into a
      multiple of `n` and a remainder below `n`. */
  lemma DivModUnique(a: int, n: int, q: int, r: int)
    requires n > 0 && 0 <= r < n && a == q * n + r
    ensures a / n == q && a % n == r
  {
    var q', r' := a / n, a % n;
    assert a == q' * n + r';
    assert (q - q') * n == r' - r;
    if q - q' >= 1 {
      MulNonneg(q - q' - 1, n);
    } else if q' - q >= 1 {
      MulNonneg(q' - q - 1, n);
    }
    assert q == q';
  }
}

=== FILE: checking.dfy ===
/** The shipped page's checks: the solution word read from seven fixed
    points, the count of correct letters and the percentage the check
    button reports. */
module Checking {
  import opened Text
  import opened Wrappers
  import opened Grid
  import opened Answers
  import opened Arith

  /** The seven points whose letters spell the solution word, in order. */
  const SolutionCoords: seq<Coord> := [(7, 0), (3, 2), (8, 2), (4, 5), (6, 6), (0, 8), (9, 11)]

  /** The solution word. The page stores it base64-encoded and reversed;
      decoded, it is this constant. */
  const SolutionWord: string := "SINAPPI"

  /** `userAnswers[key] || pad`: a missing or empty entry reads as `pad`. */
  function Entry(m: AnswerMap, c: Coord, pad: string): (r: string)
    ensures c in m && m[c] != "" ==> r == m[c]
    ensures c !in m || m[c] == "" ==> r == pad
  {
    if c in m && m[c] != "" then m[c] else pad
  }

  /** The entries at `coords`, in order, joined. */
  function Attempt(m: AnswerMap, coords: seq<Coord>, pad: string): (r: string)
    ensures pad == "" ==> |r| <= Sum(m, coords)
  {
    if coords == [] then "" else Entry(m, coords[0], pad) + Attempt(m, coords[1..], pad)
  }

  /** The total length of the entries at `coords`. */
  function Sum(m: AnswerMap, coords: seq<Coord>): nat {
    if coords == [] then 0 else |Entry(m, coords[0], "")| + Sum(m, coords[1..])
  }

  /** `checkSolutionWord`: the joined entries at the solution points,
      missing ones contributing nothing, upper-cased, equal the word. */
  function CheckSolutionWord(m: AnswerMap): bool {
    Upper(Attempt(m, SolutionCoords, "")) == SolutionWord
  }

  /** Every entry at `coords` holds at most one character. */
  predicate AtMostOneChar(m: AnswerMap, coords: seq<Coord>) {
    forall i :: 0 <= i < |coords| && coords[i] in m ==> |m[coords[i]]| <= 1
  }

  /** Position `i` of the attempt holds the letter the word wants there. */
  predicate Matches(m: AnswerMap, coords: seq<Coord>, word: string, i: int)
    requires 0 <= i < |coords| == |word|
  {
    coords[i] in m && |m[coords[i]]| == 1 && UpperChar(m[coords[i]][0]) == word[i]
  }

  lemma {:induction false} AttemptShort(m: AnswerMap, coords: seq<Coord>)
    requires AtMostOneChar(m, coords)
    ensures |Attempt(m, coords, "")| <= |coords|
    ensures |Attempt(m, coords, "")| == |coords| ==>
      forall i :: 0 <= i < |coords| ==> coords[i] in m && |m[coords[i]]| == 1
  {
    if coords != [] {
      assert AtMostOneChar(m, coords[1..]) by {
        forall i | 0 <= i < |coords[1..]| && coords[1..][i] in m
          ensures |m[coords[1..][i]]| <= 1
        {
          assert coords[1..][i] == coords[i + 1];
        }
      }
      AttemptShort(m, coords[1..]);
      if |Attempt(m, coords, "")| == |coords| {
        forall i | 0 <= i < |coords|
          ensures coords[i] in m && |m[coords[i]]| == 1
        {
          if i > 0 {
            assert coords[i] == coords[1..][i - 1];
          }
        }
      }
    }
  }

  lemma {:induction false} AttemptFull(m: AnswerMap, coords: seq<Coord>, pad: string)
    requires forall i :: 0 <= i < |coords| ==> coords[i] in m && |m[coords[i]]| == 1
    ensures |Attempt(m, coords, pad)| == |coords|
    ensures forall i :: 0 <= i < |coords| ==> Attempt(m, coords, pad)[i] == m[coords[i]][0]
  {
    if coords != [] {
      AttemptFull(m, coords[1..], pad);
      var rest := Attempt(m, coords[1..], pad);
      assert Attempt(m, coords, pad) == m[coords[0]] + rest;
      forall i | 0 <= i < |coords|
        ensures Attempt(m, coords, pad)[i] == m[coords[i]][0]
      {
        if i > 0 {
          assert coords[i] == coords[1..][i - 1];
        }
      }
    }
  }

  /** With one character per entry, the joined entries spell `word` exactly
      when every point holds a letter equal, ignoring case, to the word's
      letter there; a partly filled solution never matches. */
  lemma SpellsIffEveryLetterMatches(m: AnswerMap, coords: seq<Coord>, word: string)
    requires |coords| == |word|
    requires AtMostOneChar(m, coords)
    ensures Upper(Attempt(m, coords, "")) == word <==>
      forall i :: 0 <= i < |coords| ==> Matches(m, coords, word, i)
  {
    var a := Attempt(m, coords, "");
    AttemptShort(m, coords);
    if Upper(a) == word {
      AttemptFull(m, coords, "");
      forall i | 0 <= i < |coords|
        ensures Matches(m, coords, word, i)
      {
        assert Upper(a)[i] == UpperChar(a[i]);
      }
    }
    if forall i :: 0 <= i < |coords| ==> Matches(m, coords, word, i) {
      AllMatchSpells(m, coords, word, "");
    }
  }

  /** When every point matches, the attempt spells the word, whatever the
      padding. */
  lemma AllMatchSpells(m: AnswerMap, coords: seq<Coord>, word: string, pad: string)
    requires |coords| == |word|
    requires forall i :: 0 <= i < |coords| ==> Matches(m, coords, word, i)
    ensures Upper(Attempt(m, coords, pad)) == word
  {
    forall i | 0 <= i < |coords|
      ensures coords[i] in m && |m[coords[i]]| == 1
    {
      assert Matches(m, coords, word, i);
    }
    AttemptFull(m, coords, pad);
    var a := Attempt(m, coords, pad);
    forall i | 0 <= i < |coords|
      ensures Upper(a)[i] == word[i]
    {
      assert Matches(m, coords, word, i);
    }
  }

  /** The solution check with single-letter entries: true exactly when each
      of the seven points holds the matching letter of `SINAPPI`. */
  lemma SolutionWordIffLetters(m: AnswerMap)
    requires AtMostOneChar(m, SolutionCoords)
    ensures CheckSolutionWord(m) <==>
      forall i :: 0 <= i < 7 ==> Matches(m, SolutionCoords, SolutionWord, i)
  {
    SpellsIffEveryLetterMatches(m, SolutionCoords, SolutionWord);
  }

  /** The solution word has no blank in it. */
  predicate NoSpace(word: string) {
    forall i :: 0 <= i < |word| ==> word[i] != ' '
  }

  /** Padding missing entries with `' '` (the check-solution button and the
      submission) decides the same as padding with `''` (the check button
      and `checkSolutionWord`) when entries are single characters and the
      word has no blank. */
  lemma SpacePaddingAgrees(m: AnswerMap, coords: seq<Coord>, word: string)
    requires |coords| == |word| && NoSpace(word)
    requires AtMostOneChar(m, coords)
    ensures Upper(Attempt(m, coords, " ")) == word <==> Upper(Attempt(m, coords, "")) == word
  {
    SpellsIffEveryLetterMatches(m, coords, word);
    var a := Attempt(m, coords, " ");
    if Upper(a) == word {
      SpacedLength(m, coords);
      forall i | 0 <= i < |coords|
        ensures Matches(m, coords, word, i)
      {
        SpacedAt(m, coords, i);
        assert Upper(a)[i] == UpperChar(a[i]);
      }
    }
    if forall i :: 0 <= i < |coords| ==> Matches(m, coords, word, i) {
      AllMatchSpells(m, coords, word, " ");
    }
  }

  lemma {:induction false} SpacedLength(m: AnswerMap, coords: seq<Coord>)
    requires AtMostOneChar(m, coords)
    ensures |Attempt(m, coords, " ")| == |coords|
  {
    if coords != [] {
      assert AtMostOneChar(m, coords[1..]) by {
        forall i | 0 <= i < |coords[1..]| && coords[1..][i] in m
          ensures |m[coords[1..][i]]| <= 1
        {
          assert coords[1..][i] == coords[i + 1];
        }
      }
      SpacedLength(m, coords[1..]);
    }
  }

  /** With `' '` padding and single-character entries, position `i` of the
      attempt is a blank or the entry's letter. */
  lemma {:induction false} SpacedAt(m: AnswerMap, coords: seq<Coord>, i: int)
    requires AtMostOneChar(m, coords) && 0 <= i < |coords|
    ensures |Attempt(m, coords, " ")| == |coords|
    ensures var a := Attempt(m, coords, " ");
      if coords[i] in m && m[coords[i]] != "" then |m[coords[i]]| == 1 && a[i] == m[coords[i]][0]
      else a[i] == ' '
  {
    SpacedLength(m, coords);
    assert AtMostOneChar(m, coords[1..]) by {
      forall j | 0 <= j < |coords[1..]| && coords[1..][j] in m
        ensures |m[coords[1..][j]]| <= 1
      {
        assert coords[1..][j] == coords[j + 1];
      }
    }
    if i > 0 {
      SpacedAt(m, coords[1..], i - 1);
      SpacedLength(m, coords[1..]);
      assert coords[i] == coords[1..][i - 1];
    }
  }

  /** `userAnswers[key]?.toUpperCase() || ''`. */
  function Given(m: AnswerMap, c: Coord): string {
    if c in m then Upper(m[c]) else ""
  }

  /** The cell's answer, read as the check counts it, equals its letter. */
  predicate Correct(m: AnswerMap, c: Cell) {
    Given(m, c.Pos()) == Upper(c.letter)
  }

  /** The count of the submission handler: fillable cells answered
      correctly. */
  function CorrectCount(cells: seq<Cell>, m: AnswerMap): (n: nat)
    ensures n == |set i | 0 <= i < |cells| && cells[i].Fillable() && Correct(m, cells[i])|
    ensures n <= TotalCells(cells)
    ensures n == TotalCells(cells) <==> forall c :: c in cells && c.Fillable() ==> Correct(m, c)
  {
    if cells == [] then 0
    else
      var k := |cells| - 1;
      CorrectIndicesStep(cells, m);
      AllCorrectStep(cells, m);
      CorrectCount(cells[..k], m) + (if cells[k].Fillable() && Correct(m, cells[k]) then 1 else 0)
  }

  /** The correctly answered fillable positions of `cells` are those of
      its prefix and, if it qualifies, the last position. */
  lemma CorrectIndicesStep(cells: seq<Cell>, m: AnswerMap)
    requires cells != []
    ensures var k := |cells| - 1;
      |set i | 0 <= i < |cells| && cells[i].Fillable() && Correct(m, cells[i])|
      == |set i | 0 <= i < k && cells[..k][i].Fillable() && Correct(m, cells[..k][i])|
        + (if cells[k].Fillable() && Correct(m, cells[k]) then 1 else 0)
  {
    var k := |cells| - 1;
    var a := set i | 0 <= i < |cells| && cells[i].Fillable() && Correct(m, cells[i]);
    var b := set i | 0 <= i < k && cells[..k][i].Fillable() && Correct(m, cells[..k][i]);
    var joins := cells[k].Fillable() && Correct(m, cells[k]);
    forall i ensures i in a <==> i in b || (joins && i == k) {
      if 0 <= i < k {
        assert cells[..k][i] == cells[i];
      }
    }
    IndexCountStep(a, b, k, joins);
  }

  /** Every fillable cell is right exactly when every fillable cell of the
      prefix is and the last one, if fillable, is. */
  lemma AllCorrectStep(cells: seq<Cell>, m: AnswerMap)
    requires cells != []
    ensures var k := |cells| - 1;
      (forall c :: c in cells && c.Fillable() ==> Correct(m, c))
      <==> ((forall c :: c in cells[..k] && c.Fillable() ==> Correct(m, c))
            && (cells[k].Fillable() ==> Correct(m, cells[k])))
  {
    var k := |cells| - 1;
    assert cells == cells[..k] + [cells[k]];
  }

  /** The count of the check button as written: every cell that is not
      blocked, whatever its letter. */
  function CorrectCountAsWritten(cells: seq<Cell>, m: AnswerMap): (n: nat)
    ensures n == |set i | 0 <= i < |cells| && !cells[i].isBlocked && Correct(m, cells[i])|
    ensures n <= |cells|
  {
    if cells == [] then 0
    else
      var k := |cells| - 1;
      IndexCountStep((set i | 0 <= i < |cells| && !cells[i].isBlocked && Correct(m, cells[i])),
        (set i | 0 <= i < k && !cells[..k][i].isBlocked && Correct(m, cells[..k][i])),
        k, !cells[k].isBlocked && Correct(m, cells[k]));
      CorrectCountAsWritten(cells[..k], m) + (if !cells[k].isBlocked && Correct(m, cells[k]) then 1 else 0)
  }

  /** `Math.round(correct / total * 100)` on exact rationals: none for a
      zero total, otherwise the integer nearest to `100 * correct / total`,
      halves rounded up. The page computes in doubles, which can land just
      below an exact half; see `PercentExactHalf`. */
  function Percent(correct: nat, total: nat): (r: Option<int>)
    ensures r.None? <==> total == 0
    ensures r.Some? ==> (2 * r.value - 1) * total <= 200 * correct < (2 * r.value + 1) * total
    ensures r.Some? && correct <= total ==> 0 <= r.value <= 100
  {
    if total == 0 then None
    else
      var p := (200 * correct + total) / (2 * total);
      PercentBounds(correct, total, p);
      Some(p)
  }

  lemma PercentBounds(correct: nat, total: nat, p: int)
    requires total > 0 && p == (200 * correct + total) / (2 * total)
    ensures (2 * p - 1) * total <= 200 * correct < (2 * p + 1) * total
    ensures correct <= total ==> 0 <= p <= 100
  {
    var a := 200 * correct + total;
    var d := 2 * total;
    var r := a % d;
    var m := p * total;
    assert a == p * d + r;
    Scale(p, total);
    assert p * d == 2 * m;
    assert 0 <= r < d;
    assert (2 * p - 1) * total == 2 * m - total;
    assert (2 * p + 1) * total == 2 * m + total;
    if correct <= total {
      if p < 0 {
        MulNonneg(-p, total);
      } else if p > 100 {
        MulNonneg(p - 101, total);
      }
    }
  }

  /** Distributing a multiple over two and one. */
  lemma Scale(p: int, total: int)
    ensures p * (2 * total) == 2 * (p * total)
    ensures (2 * p - 1) * total == 2 * (p * total) - total
    ensures (2 * p + 1) * total == 2 * (p * total) + total
  {
  }

  /** The report of the check button, with the count of the submission
      handler: the percentage and the solution verdict, which also decides
      whether the submit button is enabled. */
  datatype Report = Report(percent: Option<int>, solutionCorrect: bool)

  function CheckReport(cells: seq<Cell>, m: AnswerMap): (r: Report)
    ensures TotalCells(cells) > 0 ==> r.percent.Some? && 0 <= r.percent.value <= 100
    ensures TotalCells(cells) > 0 && (forall c :: c in cells && c.Fillable() ==> Correct(m, c))
      ==> r.percent == Some(100)
    ensures r.solutionCorrect == CheckSolutionWord(m)
  {
    var total := TotalCells(cells);
    var correct := CorrectCount(cells, m);
    PercentFull(total);
    Report(Percent(correct, total), CheckSolutionWord(m))
  }

  /** A full count reads as 100 %. */
  lemma PercentFull(total: nat)
    ensures total > 0 ==> Percent(total, total) == Some(100)
  {
    if total > 0 {
      assert 200 * total + total == 100 * (2 * total) + total;
      DivModUnique(200 * total + total, 2 * total, 100, total);
    }
  }

  /** An exact half rounds up: 23 of 40 is 57.5 % and reads as 58. */
  lemma PercentExactHalf()
    ensures Percent(23, 40) == Some(58)
  {
    DivModUnique(200 * 23 + 40, 2 * 40, 58, 0);
  }

  /** The converse fails from 200 cells on: rounding shows 199 correct of
      200 as 100 %, so the percentage alone does not tell a finished grid. */
  lemma RoundedHundredNotFull()
    ensures Percent(199, 200) == Some(100)
  {
    DivModUnique(200 * 199 + 200, 400, 100, 0);
  }

  /** As written, the check button counts a non-blocked cell with an empty
      letter as correct while the total leaves it out, so an empty letter
      next to one answered cell reads as 200 %. */
  lemma AsWrittenCountExceedsTotal()
    ensures var cells := [Cell(0, 0, "", false), Cell(1, 0, "A", false)];
      var m := map[(1, 0) := "A"];
      && CorrectCountAsWritten(cells, m) == 2
      && TotalCells(cells) == 1
      && Percent(CorrectCountAsWritten(cells, m), TotalCells(cells)) == Some(200)
  {
    var cells := [Cell(0, 0, "", false), Cell(1, 0, "A", false)];
    var m := map[(1, 0) := "A"];
    assert !IsBlank("A") by { assert !IsSpace("A"[0]); }
    assert cells[..1] == [Cell(0, 0, "", false)];
    assert cells[..1][..0] == [];
    assert CorrectCountAsWritten(cells, m) == 2;
    assert TotalCells(cells) == 1;
  }

  /** Where no non-blocked cell with a blank letter reads as correct (the
      puzzle data writes blanks as `" "`, which an empty answer never
      equals), the two counts agree. */
  lemma {:induction false} AsWrittenAgreesOnSpaceBlanks(cells: seq<Cell>, m: AnswerMap)
    requires forall c :: c in cells && !c.isBlocked && IsBlank(c.letter) ==> !Correct(m, c)
    ensures CorrectCountAsWritten(cells, m) == CorrectCount(cells, m)
  {
    if cells != [] {
      var k := |cells| - 1;
      assert cells == cells[..k] + [cells[k]];
      AsWrittenAgreesOnSpaceBlanks(cells[..k], m);
    }
  }
}

=== FILE: grid.dfy ===
/** The puzzle as the shipped page holds it: cells and words, the load-time
    flip of the Y axis, and which words contain a grid point. */
module Grid {
  import opened Text
  import opened Wrappers

  /** A grid point `(x, y)`; the answer map writes it as the key `"x,y"`. */
  type Coord = (int, int)

  datatype Dir = Across | Down

  /** `letter` is the expected answer, kept as the string the data holds
      (a blank cell has `" "`). */
  datatype Cell = Cell(x: int, y: int, letter: string, isBlocked: bool)
  {
    function Pos(): Coord { (x, y) }

    /** The page gives a cell a text input exactly when it is not blocked
        and its letter is not blank. */
    predicate Fillable() { !isBlocked && !IsBlank(letter) }
  }

  /** A word as the data describes it; `direction` is kept as a string
      because the code compares it with `"across"` and treats every other
      value as down. */
  datatype Word = Word(index: int, startX: int, startY: int, length: int, direction: string)
  {
    function Dir(): Dir { if direction == "across" then Across else Down }

    /** The `i`-th cell of the word, walking from its start along its
        direction. */
    function Step(i: int): Coord {
      if Dir() == Across then (startX + i, startY) else (startX, startY + i)
    }
  }

  datatype Puzzle = Puzzle(cells: seq<Cell>, words: seq<Word>)

  /** The data gives Y with the origin at the bottom; the page flips it
      against the fixed top row 11. */
  const TopRow: int := 11

  function FlipY(y: int): int { TopRow - y }

  lemma FlipYInvolution(y: int)
    ensures FlipY(FlipY(y)) == y
  {
  }

  function LoadCell(c: Cell): (r: Cell)
    ensures r.x == c.x && r.letter == c.letter && r.isBlocked == c.isBlocked
    ensures r.y + c.y == TopRow
  {
    c.(y := FlipY(c.y))
  }

  function LoadWord(w: Word): (r: Word)
    ensures r.index == w.index && r.startX == w.startX && r.length == w.length
    ensures r.startY + w.startY == TopRow
    ensures r.direction == Lower(w.direction)
    ensures IsLowerCased(r.direction)
  {
    w.(startY := FlipY(w.startY), direction := Lower(w.direction))
  }

  function LoadCells(cells: seq<Cell>): (r: seq<Cell>)
    ensures |r| == |cells|
    ensures forall i :: 0 <= i < |cells| ==> r[i] == LoadCell(cells[i])
  {
    if cells == [] then [] else [LoadCell(cells[0])] + LoadCells(cells[1..])
  }

  /** The load transform applied to every cell and every word, keeping
      their order. */
  function Load(p: Puzzle): (q: Puzzle)
    ensures |q.cells| == |p.cells| && |q.words| == |p.words|
    ensures forall i :: 0 <= i < |p.cells| ==> q.cells[i] == LoadCell(p.cells[i])
    ensures forall i :: 0 <= i < |p.words| ==> q.words[i] == LoadWord(p.words[i])
  {
    Puzzle(LoadCells(p.cells),
           seq(|p.words|, i requires 0 <= i < |p.words| => LoadWord(p.words[i])))
  }

  /** Loading twice flips Y back: the transform must run exactly once. The
      cells come back unchanged and the words keep only the lower-cased
      direction. */
  lemma LoadTwice(p: Puzzle)
    ensures Load(Load(p)).cells == p.cells
    ensures forall i :: 0 <= i < |p.words| ==>
      Load(Load(p)).words[i] == p.words[i].(direction := Lower(p.words[i].direction))
  {
    forall i | 0 <= i < |p.words|
      ensures Load(Load(p)).words[i] == p.words[i].(direction := Lower(p.words[i].direction))
    {
      LowerIdempotent(p.words[i].direction);
    }
  }

  /** A direction spelled in any case is recognised once loaded. */
  lemma LoadRecognisesAcross(w: Word)
    requires Lower(w.direction) == "across"
    ensures LoadWord(w).Dir() == Across
  {
  }

  /** `document.querySelector` on `data-x`/`data-y`: the first cell at the
      point, or none. */
  function CellAt(cells: seq<Cell>, x: int, y: int): (r: Option<Cell>)
    ensures r.Some? ==> r.value in cells && r.value.x == x && r.value.y == y
    ensures r.None? <==> forall c :: c in cells ==> c.Pos() != (x, y)
  {
    if cells == [] then None
    else if cells[0].x == x && cells[0].y == y then Some(cells[0])
    else CellAt(cells[1..], x, y)
  }

  /** After loading, the cell found at a flipped point is the loaded form of
      the cell the raw data has at the original point. */
  lemma {:induction false} LoadKeepsCellAt(cells: seq<Cell>, x: int, y: int)
    ensures CellAt(LoadCells(cells), x, FlipY(y)) ==
      match CellAt(cells, x, y)
      case None => None
      case Some(c) => Some(LoadCell(c))
  {
    if cells != [] {
      LoadKeepsCellAt(cells[1..], x, y);
      assert LoadCells(cells)[1..] == LoadCells(cells[1..]);
    }
  }

  /** The span test of `isPointInWord` and of the click handler's filter. */
  predicate InWord(w: Word, x: int, y: int) {
    if w.Dir() == Across then y == w.startY && w.startX <= x < w.startX + w.length
    else x == w.startX && w.startY <= y < w.startY + w.length
  }

  /** The points a word covers, walked step by step from its start. */
  function WordCells(w: Word): (r: seq<Coord>)
    ensures |r| == if w.length < 0 then 0 else w.length
    ensures forall i :: 0 <= i < |r| ==> r[i] == w.Step(i)
  {
    seq(if w.length < 0 then 0 else w.length, i => w.Step(i))
  }

  /** The span test agrees with walking the word from its start. */
  lemma InWordIffWalked(w: Word, x: int, y: int)
    ensures InWord(w, x, y) <==> (x, y) in WordCells(w)
  {
    if InWord(w, x, y) {
      var i := if w.Dir() == Across then x - w.startX else y - w.startY;
      assert WordCells(w)[i] == (x, y);
    }
  }

  /** Read back in the data's own bottom-origin rows, a loaded down word
      covers its start row and the `length - 1` rows below it, and a loaded
      across word covers its start row. */
  lemma LoadedSpanInRawRows(w: Word, x: int, y: int)
    ensures LoadWord(w).Dir() == Down ==>
      (InWord(LoadWord(w), x, FlipY(y)) <==> x == w.startX && w.startY - w.length < y <= w.startY)
    ensures LoadWord(w).Dir() == Across ==>
      (InWord(LoadWord(w), x, FlipY(y)) <==> y == w.startY && w.startX <= x < w.startX + w.length)
  {
  }

  /** `xs` keeps some of the elements of `ys`, in their order. */
  predicate IsSubsequence<T(==)>(xs: seq<T>, ys: seq<T>)
    decreases |ys|
  {
    if xs == [] then true
    else if ys == [] then false
    else if xs[0] == ys[0] then IsSubsequence(xs[1..], ys[1..])
    else IsSubsequence(xs, ys[1..])
  }

  /** The words containing a point, in the puzzle's order. */
  function WordsAt(words: seq<Word>, x: int, y: int): (r: seq<Word>)
    ensures forall w :: w in r <==> w in words && InWord(w, x, y)
    ensures IsSubsequence(r, words)
  {
    if words == [] then []
    else if InWord(words[0], x, y) then [words[0]] + WordsAt(words[1..], x, y)
    else WordsAt(words[1..], x, y)
  }

  /** The cells the page counts as the puzzle's size: not blocked and with a
      non-blank letter. */
  function TotalCells(cells: seq<Cell>): (n: nat)
    ensures n == |set i | 0 <= i < |cells| && cells[i].Fillable()|
    ensures n <= |cells|
    ensures n == 0 <==> forall c :: c in cells ==> !c.Fillable()
    ensures n == |cells| <==> forall c :: c in cells ==> c.Fillable()
  {
    if cells == [] then 0
    else
      var k := |cells| - 1;
      assert cells == cells[..k] + [cells[k]];
      IndexCountStep((set i | 0 <= i < |cells| && cells[i].Fillable()),
        (set i | 0 <= i < k && cells[..k][i].Fillable()), k, cells[k].Fillable());
      TotalCells(cells[..k]) + (if cells[k].Fillable() then 1 else 0)
  }

  /** Counting the indices of a sequence one more element at a time: the
      new index `k` joins the set or not. */
  lemma IndexCountStep(a: set<int>, b: set<int>, k: int, joins: bool)
    requires k !in b
    requires forall i :: i in a <==> i in b || (joins && i == k)
    ensures |a| == |b| + (if joins then 1 else 0)
  {
    if joins {
      assert forall i :: i in a <==> i in b + {k};
      assert a == b + {k};
    } else {
      assert forall i :: i in a <==> i in b;
      assert a == b;
    }
  }
}

=== FILE: highlight.dfy ===
/** The click handler of the shipped page: which word is active, the
    direction toggle on a repeated click, and the cells it marks. */
module Highlight {
  import opened Wrappers
  import opened Grid
  import opened Arith

  /** `currentHighlightedWord` and `lastClickedCell`. */
  datatype State = State(active: Option<Word>, lastClicked: Option<Coord>)
  {
    /** A click is only remembered together with the word it chose. */
    predicate Valid() { lastClicked.Some? ==> active.Some? }
  }

  const Initial: State := State(None, None)

  /** `findIndex` on the word number: the first position holding a word
      numbered `index`, or -1. */
  function FindIndex(ws: seq<Word>, index: int): (i: int)
    ensures -1 <= i < |ws|
    ensures 0 <= i ==> ws[i].index == index
    ensures forall j :: 0 <= j < |ws| && (i == -1 || j < i) ==> ws[j].index != index
  {
    if ws == [] then -1
    else if ws[0].index == index then 0
    else var i := FindIndex(ws[1..], index); if i == -1 then -1 else i + 1
  }

  /** No two words at a point share a number, as in the puzzle data. */
  predicate DistinctNumbers(ws: seq<Word>) {
    forall i, j :: 0 <= i < j < |ws| ==> ws[i].index != ws[j].index
  }

  /** A click at `(x, y)`. A point in no word changes nothing. Otherwise the
      first word at the point is chosen unless the same point was clicked
      last and several words meet there, in which case the word after the
      active one is chosen, cyclically. The point is remembered. */
  function Click(words: seq<Word>, st: State, x: int, y: int): (r: State)
    requires st.Valid()
    ensures r.Valid()
    ensures WordsAt(words, x, y) == [] ==> r == st
    ensures WordsAt(words, x, y) != [] ==>
      && r.lastClicked == Some((x, y))
      && r.active.Some? && r.active.value in words && InWord(r.active.value, x, y)
    ensures var ws := WordsAt(words, x, y);
      ws != [] && (st.lastClicked != Some((x, y)) || |ws| == 1) ==> r.active == Some(ws[0])
  {
    Choose(WordsAt(words, x, y), st, x, y)
  }

  /** The choice a click at `(x, y)` makes once the words there, `ws`, are
      known. */
  function Choose(ws: seq<Word>, st: State, x: int, y: int): (r: State)
    requires st.Valid()
    ensures r.Valid()
    ensures ws == [] ==> r == st
    ensures ws != [] ==> r.lastClicked == Some((x, y)) && r.active.Some? && r.active.value in ws
  {
    if ws == [] then st
    else if st.lastClicked.None? || |ws| == 1 || st.lastClicked.value != (x, y) then
      State(Some(ws[0]), Some((x, y)))
    else
      var i := FindIndex(ws, st.active.value.index);
      State(Some(ws[(i + 1) % |ws|]), Some((x, y)))
  }

  /** `k` further clicks on the same point. */
  function Repeat(words: seq<Word>, st: State, x: int, y: int, k: nat): (r: State)
    requires st.Valid()
    ensures r.Valid()
    decreases k
  {
    if k == 0 then st else Repeat(words, Click(words, st, x, y), x, y, k - 1)
  }

  lemma ModMultiple(i: int, m: nat, n: int)
    requires n > 0 && 0 <= i < n
    ensures (i + m * n) % n == i
  {
    DivModUnique(i + m * n, n, m, i);
  }

  /** With distinct numbers, `findIndex` finds a word where it stands. */
  lemma {:induction false} FindIndexDistinct(ws: seq<Word>, i: int)
    requires DistinctNumbers(ws) && 0 <= i < |ws|
    ensures FindIndex(ws, ws[i].index) == i
  {
  }

  /** The position after `i` among `n` words, wrapping round. */
  function Succ(i: int, n: int): int {
    if i + 1 < n then i + 1 else 0
  }

  /** The position `k` steps after `i` among `n` words. */
  function Advance(i: int, k: nat, n: int): (j: int)
    requires 0 <= i < n
    ensures 0 <= j < n
    decreases k
  {
    if k == 0 then i else Advance(Succ(i, n), k - 1, n)
  }

  lemma {:induction false} AdvanceIsMod(i: int, k: nat, n: int)
    requires 0 <= i < n
    ensures Advance(i, k, n) == (i + k) % n
    decreases k
  {
    if k == 0 {
      DivModUnique(i, n, 0, i);
    } else {
      AdvanceIsMod(Succ(i, n), k - 1, n);
      if i + 1 < n {
        assert Succ(i, n) + (k - 1) == i + k;
      } else {
        ModMultipleShift(k - 1, n);
      }
    }
  }

  lemma ModMultipleShift(a: int, n: int)
    requires n > 0
    ensures (a + n) % n == a % n
  {
    var q, r := a / n, a % n;
    assert a == q * n + r;
    assert a + n == (q + 1) * n + r;
    DivModUnique(a + n, n, q + 1, r);
  }

  /** One more click on the point of the active word moves to the next word
      at the point. */
  lemma ChooseAgain(ws: seq<Word>, x: int, y: int, i: int)
    requires DistinctNumbers(ws) && 0 <= i < |ws|
    ensures Choose(ws, State(Some(ws[i]), Some((x, y))), x, y)
      == State(Some(ws[Succ(i, |ws|)]), Some((x, y)))
  {
    if |ws| > 1 {
      FindIndexDistinct(ws, i);
      if i + 1 < |ws| {
        DivModUnique(i + 1, |ws|, 0, i + 1);
      } else {
        DivModUnique(i + 1, |ws|, 1, 0);
      }
    }
  }

  /** `k` choices among the same words `ws`. */
  function ChooseRepeatedly(ws: seq<Word>, st: State, x: int, y: int, k: nat): (r: State)
    requires st.Valid()
    ensures r.Valid()
    decreases k
  {
    if k == 0 then st else ChooseRepeatedly(ws, Choose(ws, st, x, y), x, y, k - 1)
  }

  /** Repeated clicks on one point choose among the same words each time. */
  lemma {:induction false} RepeatChoosesAmongSameWords(words: seq<Word>, st: State, x: int, y: int, k: nat)
    requires st.Valid()
    ensures Repeat(words, st, x, y, k) == ChooseRepeatedly(WordsAt(words, x, y), st, x, y, k)
    decreases k
  {
    if k > 0 {
      RepeatChoosesAmongSameWords(words, Click(words, st, x, y), x, y, k - 1);
    }
  }

  /** `k` choices starting from the word at position `i` walk the
      words in step. */
  lemma {:induction false} ChoicesAdvance(ws: seq<Word>, x: int, y: int, i: int, k: nat)
    requires DistinctNumbers(ws) && 0 <= i < |ws|
    ensures ChooseRepeatedly(ws, State(Some(ws[i]), Some((x, y))), x, y, k)
      == State(Some(ws[Advance(i, k, |ws|)]), Some((x, y)))
    decreases k
  {
    if k > 0 {
      ChooseAgain(ws, x, y, i);
      ChoicesAdvance(ws, x, y, Succ(i, |ws|), k - 1);
    }
  }

  /** Clicking the point of the active word again `k` times moves `k`
      places along the words at the point, wrapping round. */
  lemma RepeatedClicksCycle(words: seq<Word>, x: int, y: int, i: int, k: nat)
    requires DistinctNumbers(WordsAt(words, x, y)) && 0 <= i < |WordsAt(words, x, y)|
    ensures Repeat(words, State(Some(WordsAt(words, x, y)[i]), Some((x, y))), x, y, k)
      == State(Some(WordsAt(words, x, y)[(i + k) % |WordsAt(words, x, y)|]), Some((x, y)))
  {
    var ws := WordsAt(words, x, y);
    RepeatChoosesAmongSameWords(words, State(Some(ws[i]), Some((x, y))), x, y, k);
    ChoicesAdvance(ws, x, y, i, k);
    AdvanceIsMod(i, k, |ws|);
  }

  /** As many choices as there are words come back to the first. */
  lemma ChoicesCycle(ws: seq<Word>, x: int, y: int, i: int, m: nat)
    requires DistinctNumbers(ws) && 0 <= i < |ws|
    ensures ChooseRepeatedly(ws, State(Some(ws[i]), Some((x, y))), x, y, m * |ws|) == State(Some(ws[i]), Some((x, y)))
  {
    var k := m * |ws|;
    ChoicesAdvance(ws, x, y, i, k);
    AdvanceIsMod(i, k, |ws|);
    ModMultiple(i, m, |ws|);
  }

  /** Clicking an intersection as many times as there are words at it (or
      any multiple) brings back the word the clicks started from. */
  lemma FullCycleRestores(words: seq<Word>, x: int, y: int, i: int, m: nat)
    requires var ws := WordsAt(words, x, y); DistinctNumbers(ws) && 0 <= i < |ws|
    ensures var ws := WordsAt(words, x, y);
      Repeat(words, State(Some(ws[i]), Some((x, y))), x, y, m * |ws|).active == Some(ws[i])
  {
    var ws := WordsAt(words, x, y);
    RepeatChoosesAmongSameWords(words, State(Some(ws[i]), Some((x, y))), x, y, m * |ws|);
    ChoicesCycle(ws, x, y, i, m);
  }

  /** The marks a click leaves: the clicked cell is `selected` and the
      other cells of the active word are `word-highlight`. */
  datatype View = View(selected: Option<Coord>, highlighted: set<Coord>)

  /** The loop that marks the active word: each of its `length` points that
      has a cell, except the clicked one. */
  method MarkWord(cells: seq<Cell>, w: Word, clicked: Coord) returns (marked: set<Coord>)
    ensures forall p :: p in marked <==>
      InWord(w, p.0, p.1) && CellAt(cells, p.0, p.1).Some? && p != clicked
  {
    ghost var walk := WordCells(w);
    marked := {};
    var i := 0;
    while i < w.length
      invariant 0 <= i && (i <= w.length || i == 0) && i <= |walk|
      invariant forall p :: p in marked <==> p in walk[..i] && CellAt(cells, p.0, p.1).Some? && p != clicked
    {
      var p := w.Step(i);
      assert walk[..i + 1] == walk[..i] + [p];
      if CellAt(cells, p.0, p.1).Some? && p != clicked {
        marked := marked + {p};
      }
      i := i + 1;
    }
    assert walk[..i] == walk;
    forall p
      ensures p in marked <==> InWord(w, p.0, p.1) && CellAt(cells, p.0, p.1).Some? && p != clicked
    {
      InWordIffWalked(w, p.0, p.1);
    }
  }

  /** The whole click handler: the marks are cleared, the clicked cell is
      selected, and when a word contains the point its other cells are
      highlighted and the state moves on. */
  method HandleClick(p: Puzzle, st: State, x: int, y: int) returns (st': State, view: View)
    requires st.Valid()
    ensures st' == Click(p.words, st, x, y)
    ensures view.selected.Some? <==> CellAt(p.cells, x, y).Some?
    ensures view.selected.Some? ==> view.selected.value == (x, y)
    ensures WordsAt(p.words, x, y) == [] ==> view.highlighted == {}
    ensures WordsAt(p.words, x, y) != [] ==>
      && InWord(st'.active.value, x, y)
      && (x, y) !in view.highlighted
      && forall q :: q in view.highlighted <==>
           InWord(st'.active.value, q.0, q.1) && CellAt(p.cells, q.0, q.1).Some? && q != (x, y)
  {
    var selected := if CellAt(p.cells, x, y).Some? then Some((x, y)) else None;
    st' := Click(p.words, st, x, y);
    if WordsAt(p.words, x, y) == [] {
      view := View(selected, {});
    } else {
      var marked := MarkWord(p.cells, st'.active.value, (x, y));
      view := View(selected, marked);
    }
  }
}

=== FILE: legacy.dfy ===
/** The older page: words carry their own list of points, the cursor moves
    by position in that list, input keeps only the first character, and
    backspace writes through a key of its own. */
module Legacy {
  import opened Text
  import opened Wrappers
  import opened Grid
  import opened Answers
  import opened Navigation
  import opened Checking

  /** A word of the older data: the fields of `Word` and the list of the
      points it covers, in order. */
  datatype LegacyWord = LegacyWord(
    index: int, startX: int, startY: int, length: int, direction: string, coords: seq<Coord>)

  /** The older load: Y of cells and of word starts is flipped against row
      11; the direction and the point lists are left as they are. */
  function LoadLegacyWord(w: LegacyWord): (r: LegacyWord)
    ensures r.startY + w.startY == TopRow
    ensures r.index == w.index && r.startX == w.startX && r.length == w.length
    ensures r.direction == w.direction && r.coords == w.coords
  {
    w.(startY := FlipY(w.startY))
  }

  function LegacyLoad(cells: seq<Cell>, words: seq<LegacyWord>): (r: (seq<Cell>, seq<LegacyWord>))
    ensures |r.0| == |cells| && |r.1| == |words|
    ensures forall i :: 0 <= i < |cells| ==> r.0[i] == LoadCell(cells[i])
    ensures forall i :: 0 <= i < |words| ==> r.1[i] == LoadLegacyWord(words[i])
  {
    (LoadCells(cells), seq(|words|, i requires 0 <= i < |words| => LoadLegacyWord(words[i])))
  }

  /** The words whose point list holds `(x, y)`, in the puzzle's order. */
  function WordsThrough(words: seq<LegacyWord>, x: int, y: int): (r: seq<LegacyWord>)
    ensures forall w :: w in r <==> w in words && (x, y) in w.coords
    ensures IsSubsequence(r, words)
  {
    if words == [] then []
    else if (x, y) in words[0].coords then [words[0]] + WordsThrough(words[1..], x, y)
    else WordsThrough(words[1..], x, y)
  }

  /** The point lists are not flipped with the cells: a word listing the
      raw point of its only cell is not found at that cell once loaded. */
  lemma LoadedCellMissesItsWord()
    ensures var w := LegacyWord(1, 0, 11, 1, "across", [(0, 11)]);
      var (cells, words) := LegacyLoad([Cell(0, 11, "A", false)], [w]);
      && cells[0].Pos() == (0, 0)
      && WordsThrough(words, 0, 0) == []
      && WordsThrough([w], 0, 11) == [w]
  {
    var w := LegacyWord(1, 0, 11, 1, "across", [(0, 11)]);
    var (cells, words) := LegacyLoad([Cell(0, 11, "A", false)], [w]);
    assert words == [LoadLegacyWord(w)];
  }

  datatype LegacyState = LegacyState(active: Option<LegacyWord>, lastClicked: Option<Coord>)

  /** A click either throws, stopping the handler, or leaves a new state. */
  datatype ClickResult = Crashed | Clicked(state: LegacyState)

  /** The toggle's test of a candidate word against the active one: every
      point of the candidate equals the active word's point at the same
      position, so an empty list always passes. */
  predicate SameAsActive(w: LegacyWord, active: Option<LegacyWord>) {
    w.coords == [] || (active.Some? && w.coords <= active.value.coords)
  }

  /** `findIndex` with that test: the first passing position, or -1. */
  function ActiveIndex(ws: seq<LegacyWord>, active: Option<LegacyWord>): (i: int)
    ensures -1 <= i < |ws|
    ensures 0 <= i ==> SameAsActive(ws[i], active)
    ensures forall j :: 0 <= j < |ws| && (i == -1 || j < i) ==> !SameAsActive(ws[j], active)
  {
    if ws == [] then -1
    else if SameAsActive(ws[0], active) then 0
    else var i := ActiveIndex(ws[1..], active); if i == -1 then -1 else i + 1
  }

  /** The older click handler, reading the clicked point from the cell. A
      point in no word changes nothing. With one word there, it is chosen.
      With several, a first click ever throws (the last click is read
      before it was set); a click on another point chooses the first word;
      a repeat click moves to the word after the one matching the active
      word, cyclically. */
  function LegacyClick(words: seq<LegacyWord>, st: LegacyState, x: int, y: int): (r: ClickResult)
    ensures var ws := WordsThrough(words, x, y);
      r.Crashed? <==> |ws| > 1 && st.lastClicked.None?
    ensures WordsThrough(words, x, y) == [] ==> r == Clicked(st)
    ensures var ws := WordsThrough(words, x, y);
      r.Clicked? && ws != [] ==>
        && r.state.lastClicked == Some((x, y))
        && r.state.active.Some? && r.state.active.value in words && (x, y) in r.state.active.value.coords
    ensures var ws := WordsThrough(words, x, y);
      ws != [] && (|ws| == 1 || (st.lastClicked.Some? && st.lastClicked.value != (x, y))) ==>
        r == Clicked(LegacyState(Some(ws[0]), Some((x, y))))
  {
    LegacyChoose(WordsThrough(words, x, y), st, x, y)
  }

  /** The choice the older click makes once the words through the point,
      `ws`, are known. */
  function LegacyChoose(ws: seq<LegacyWord>, st: LegacyState, x: int, y: int): (r: ClickResult)
    ensures r.Clicked? && ws != [] ==> r.state.active.Some? && r.state.active.value in ws
  {
    if ws == [] then Clicked(st)
    else if |ws| == 1 then Clicked(LegacyState(Some(ws[0]), Some((x, y))))
    else if st.lastClicked.None? then Crashed
    else if st.lastClicked.value != (x, y) then Clicked(LegacyState(Some(ws[0]), Some((x, y))))
    else
      var i := ActiveIndex(ws, st.active);
      Clicked(LegacyState(Some(ws[(i + 1) % |ws|]), Some((x, y))))
  }

  /** No word's point list is a prefix of another's. */
  predicate PrefixFree(ws: seq<LegacyWord>) {
    forall i, j :: 0 <= i < |ws| && 0 <= j < |ws| && i != j ==> !(ws[i].coords <= ws[j].coords)
  }

  /** A repeat click on a point of several prefix-free words moves from the
      `i`-th word there to the `(i + 1) mod n`-th. */
  lemma LegacyRepeatClick(words: seq<LegacyWord>, x: int, y: int, i: int)
    requires var ws := WordsThrough(words, x, y); |ws| > 1 && PrefixFree(ws) && 0 <= i < |ws|
    ensures var ws := WordsThrough(words, x, y);
      LegacyClick(words, LegacyState(Some(ws[i]), Some((x, y))), x, y)
        == Clicked(LegacyState(Some(ws[(i + 1) % |ws|]), Some((x, y))))
  {
    var ws := WordsThrough(words, x, y);
    forall j | 0 <= j < |ws| ensures ws[j].coords != [] {
      assert ws[j] in ws;
    }
    RepeatChoiceMovesOn(ws, x, y, i);
  }

  /** The same, once the words through the point are known. */
  lemma RepeatChoiceMovesOn(ws: seq<LegacyWord>, x: int, y: int, i: int)
    requires |ws| > 1 && PrefixFree(ws) && 0 <= i < |ws|
    requires forall j :: 0 <= j < |ws| ==> ws[j].coords != []
    ensures LegacyChoose(ws, LegacyState(Some(ws[i]), Some((x, y))), x, y)
      == Clicked(LegacyState(Some(ws[(i + 1) % |ws|]), Some((x, y))))
  {
    ActiveIndexFinds(ws, i);
  }

  /** Among prefix-free words with non-empty lists, the toggle's test finds
      a word where it stands. */
  lemma ActiveIndexFinds(ws: seq<LegacyWord>, i: int)
    requires PrefixFree(ws) && 0 <= i < |ws|
    requires forall j :: 0 <= j < |ws| ==> ws[j].coords != []
    ensures ActiveIndex(ws, Some(ws[i])) == i
  {
    var k := ActiveIndex(ws, Some(ws[i]));
    assert SameAsActive(ws[i], Some(ws[i]));
    assert k != -1;
  }

  /** Repeat clicks on a point where two prefix-free words cross alternate
      between them. */
  lemma LegacyTwoWordsAlternate(words: seq<LegacyWord>, x: int, y: int)
    requires var ws := WordsThrough(words, x, y); |ws| == 2 && PrefixFree(ws)
    ensures var ws := WordsThrough(words, x, y);
      && LegacyClick(words, LegacyState(Some(ws[0]), Some((x, y))), x, y) == Clicked(LegacyState(Some(ws[1]), Some((x, y))))
      && LegacyClick(words, LegacyState(Some(ws[1]), Some((x, y))), x, y) == Clicked(LegacyState(Some(ws[0]), Some((x, y))))
  {
    LegacyRepeatClick(words, x, y, 0);
    LegacyRepeatClick(words, x, y, 1);
  }

  /** `findIndex` on a point list: the first position holding `p`, or -1. */
  function IndexOf(coords: seq<Coord>, p: Coord): (i: int)
    ensures -1 <= i < |coords|
    ensures i == -1 <==> p !in coords
    ensures 0 <= i ==> coords[i] == p && forall j :: 0 <= j < i ==> coords[j] != p
  {
    if coords == [] then -1
    else if coords[0] == p then 0
    else var i := IndexOf(coords[1..], p); if i == -1 then -1 else i + 1
  }

  /** The older `findNextCell`: none without an active word, when the point
      is not in the word's list, or when it is the list's last; otherwise
      the cell at the next listed point. */
  function LegacyNext(cells: seq<Cell>, active: Option<LegacyWord>, cur: Coord): (r: Option<Cell>)
    ensures active.None? ==> r.None?
    ensures active.Some? && (cur !in active.value.coords || IndexOf(active.value.coords, cur) == |active.value.coords| - 1)
      ==> r.None?
    ensures r.Some? ==> exists i :: (0 <= i < |active.value.coords| - 1 &&
      active.value.coords[i] == cur && r.value.Pos() == active.value.coords[i + 1])
    ensures active.Some? && NoRepeats(active.value.coords) ==>
      forall j :: 0 <= j < |active.value.coords| - 1 && active.value.coords[j] == cur ==>
        r == CellAt(cells, active.value.coords[j + 1].0, active.value.coords[j + 1].1)
  {
    match active
    case None => None
    case Some(w) =>
      var i := IndexOf(w.coords, cur);
      if i == -1 || i == |w.coords| - 1 then None
      else CellAt(cells, w.coords[i + 1].0, w.coords[i + 1].1)
  }

  /** The older `findPrevCell`: none when the point's position is at most
      0, which covers a point outside the list; otherwise the cell at the
      previous listed point. */
  function LegacyPrev(cells: seq<Cell>, active: Option<LegacyWord>, cur: Coord): (r: Option<Cell>)
    ensures active.None? ==> r.None?
    ensures active.Some? && (cur !in active.value.coords || active.value.coords[0] == cur) ==> r.None?
    ensures r.Some? ==> exists i :: (0 < i < |active.value.coords| &&
      active.value.coords[i] == cur && r.value.Pos() == active.value.coords[i - 1])
    ensures active.Some? && NoRepeats(active.value.coords) ==>
      forall j :: 0 < j < |active.value.coords| && active.value.coords[j] == cur ==>
        r == CellAt(cells, active.value.coords[j - 1].0, active.value.coords[j - 1].1)
  {
    match active
    case None => None
    case Some(w) =>
      var i := IndexOf(w.coords, cur);
      if i <= 0 then None
      else CellAt(cells, w.coords[i - 1].0, w.coords[i - 1].1)
  }

  /** No point is listed twice. */
  predicate NoRepeats(coords: seq<Coord>) {
    forall i, j :: 0 <= i < j < |coords| ==> coords[i] != coords[j]
  }

  lemma IndexOfListed(coords: seq<Coord>, i: int)
    requires NoRepeats(coords) && 0 <= i < |coords|
    ensures IndexOf(coords, coords[i]) == i
  {
  }

  /** Along a list without repeats, next and then previous comes back to
      the cell the cursor was on. */
  lemma LegacyNextThenPrev(cells: seq<Cell>, w: LegacyWord, cur: Coord)
    requires NoRepeats(w.coords)
    requires LegacyNext(cells, Some(w), cur).Some?
    ensures LegacyPrev(cells, Some(w), LegacyNext(cells, Some(w), cur).value.Pos()) == CellAt(cells, cur.0, cur.1)
  {
    var cs := w.coords;
    var i := IndexOf(cs, cur);
    assert 0 <= i < |cs| - 1 && cs[i] == cur;
    var next := LegacyNext(cells, Some(w), cur);
    assert next == CellAt(cells, cs[i + 1].0, cs[i + 1].1);
    assert next.value.Pos() == cs[i + 1];
  }

  /** Along a list without repeats, previous and then next comes back to
      the cell the cursor was on. */
  lemma LegacyPrevThenNext(cells: seq<Cell>, w: LegacyWord, cur: Coord)
    requires NoRepeats(w.coords)
    requires LegacyPrev(cells, Some(w), cur).Some?
    ensures LegacyNext(cells, Some(w), LegacyPrev(cells, Some(w), cur).value.Pos()) == CellAt(cells, cur.0, cur.1)
  {
    var cs := w.coords;
    var i := IndexOf(cs, cur);
    assert 0 < i < |cs| && cs[i] == cur;
    var prev := LegacyPrev(cells, Some(w), cur);
    assert prev == CellAt(cells, cs[i - 1].0, cs[i - 1].1);
    assert prev.value.Pos() == cs[i - 1];
  }

  /** The older word listing exactly the points of a shipped word. */
  function Listed(w: Word): (lw: LegacyWord)
    ensures lw.coords == WordCells(w)
  {
    LegacyWord(w.index, w.startX, w.startY, w.length, w.direction, WordCells(w))
  }

  /** A word's walked points never repeat. */
  lemma WordCellsNoRepeats(w: Word)
    ensures NoRepeats(WordCells(w))
  {
  }

  /** The position of a point of the word in its walked list is its offset
      from the start. */
  lemma OffsetInList(w: Word, cur: Coord) returns (i: int)
    requires InWord(w, cur.0, cur.1)
    ensures 0 <= i < |WordCells(w)| && IndexOf(WordCells(w), cur) == i
    ensures i == if w.Dir() == Across then cur.0 - w.startX else cur.1 - w.startY
  {
    i := if w.Dir() == Across then cur.0 - w.startX else cur.1 - w.startY;
    assert WordCells(w)[i] == cur;
    WordCellsNoRepeats(w);
    IndexOfListed(WordCells(w), i);
  }

  /** On a point of the word, moving forward by list position and by span
      agree. */
  lemma ListNextAgreesWithSpan(cells: seq<Cell>, w: Word, cur: Coord)
    requires InWord(w, cur.0, cur.1)
    ensures LegacyNext(cells, Some(Listed(w)), cur) == FindNextCell(cells, Some(w), cur)
  {
    var i := OffsetInList(w, cur);
    var list := WordCells(w);
    SpanNeighbour(cells, w, cur, i);
    if i + 1 < |list| {
      var q := w.Step(i + 1);
      assert list[i + 1] == q;
      assert LegacyNext(cells, Some(Listed(w)), cur) == CellAt(cells, q.0, q.1);
    } else {
      assert LegacyNext(cells, Some(Listed(w)), cur).None?;
    }
  }

  /** On a point of the word, moving back by list position and by span
      agree. */
  lemma ListPrevAgreesWithSpan(cells: seq<Cell>, w: Word, cur: Coord)
    requires InWord(w, cur.0, cur.1)
    ensures LegacyPrev(cells, Some(Listed(w)), cur) == FindPrevCell(cells, Some(w), cur)
  {
    var i := OffsetInList(w, cur);
    var list := WordCells(w);
    SpanNeighbour(cells, w, cur, i);
    if i > 0 {
      var q := w.Step(i - 1);
      assert list[i - 1] == q;
      assert LegacyPrev(cells, Some(Listed(w)), cur) == CellAt(cells, q.0, q.1);
    } else {
      assert LegacyPrev(cells, Some(Listed(w)), cur).None?;
    }
  }

  /** The span moves from the point at offset `i` to the cells at offsets
      `i + 1` and `i - 1`, within the word. */
  lemma SpanNeighbour(cells: seq<Cell>, w: Word, cur: Coord, i: int)
    requires InWord(w, cur.0, cur.1) && cur == w.Step(i) && 0 <= i < w.length
    ensures i + 1 < w.length ==> FindNextCell(cells, Some(w), cur) == CellAt(cells, w.Step(i + 1).0, w.Step(i + 1).1)
    ensures i + 1 == w.length ==> FindNextCell(cells, Some(w), cur).None?
    ensures i > 0 ==> FindPrevCell(cells, Some(w), cur) == CellAt(cells, w.Step(i - 1).0, w.Step(i - 1).1)
    ensures i == 0 ==> FindPrevCell(cells, Some(w), cur).None?
  {
    if w.Dir() == Across {
      assert cur == (w.startX + i, w.startY);
    } else {
      assert cur == (w.startX, w.startY + i);
    }
  }

  /** Off the word the two part ways: the list stops, while the span test
      still moves a cursor on another row. */
  lemma ListStopsOffWord()
    ensures var w := Word(1, 0, 0, 4, "across");
      var cells := [Cell(0, 5, "A", false), Cell(1, 5, "B", false)];
      && LegacyNext(cells, Some(Listed(w)), (0, 5)).None?
      && FindNextCell(cells, Some(w), (0, 5)).Some?
  {
    var w := Word(1, 0, 0, 4, "across");
    assert (0, 5) !in WordCells(w) by {
      InWordIffWalked(w, 0, 5);
    }
  }

  /** The older `handleInput`: the value upper-cased; when non-empty only
      its first character is stored, otherwise the entry is removed; the
      map is written to storage either way. */
  function LegacyInput(m: AnswerMap, at: Coord, value: string): (r: (AnswerMap, Slot))
    ensures Mirrors(r.1, r.0)
    ensures value != "" ==> at in r.0 && r.0[at] == [UpperChar(value[0])]
    ensures value == "" ==> at !in r.0
    ensures forall k :: k != at ==> (k in r.0 <==> k in m) && (k in m ==> r.0[k] == m[k])
  {
    var v := Upper(value);
    var m' := if |v| > 0 then m[at := v[..1]] else m - {at};
    (m', Stored(m'))
  }

  /** Where the input already holds at most one character, the older
      handler stores what the shipped one stores. */
  lemma LegacyInputAgreesOnSingle(m: AnswerMap, at: Coord, value: string)
    requires |value| <= 1
    ensures LegacyInput(m, at, value) == OnInput(m, at, value)
  {
    if |value| == 1 {
      assert Upper(value)[..1] == Upper(value);
    }
  }

  /** Every entry is at most one character. */
  predicate Short(m: AnswerMap) {
    forall k :: k in m ==> |m[k]| <= 1
  }

  /** The older handler keeps entries short whatever the input holds. */
  lemma LegacyInputKeepsShort(m: AnswerMap, at: Coord, value: string)
    requires Short(m)
    ensures Short(LegacyInput(m, at, value).0)
  {
  }

  /** Where focus goes after input at `at`: the next listed cell's input,
      when the value is non-empty and there is one. */
  function LegacyInputFocus(cells: seq<Cell>, active: Option<LegacyWord>, at: Coord, value: string): (r: Option<Coord>)
    ensures value == "" ==> r.None?
    ensures r.Some? ==> active.Some? && at in active.value.coords && r.value in active.value.coords
    ensures value != "" ==> r == FocusOn(LegacyNext(cells, active, at))
  {
    if value != "" then FocusOn(LegacyNext(cells, active, at)) else None
  }

  /** The older page: the answers, what each input shows, and storage. */
  datatype LegacyPage = LegacyPage(answers: AnswerMap, display: map<Coord, string>, slot: Slot)

  /** Every input shows exactly its stored answer. */
  ghost predicate InSync(pg: LegacyPage) {
    forall p :: Shown(pg.display, p) == Shown(pg.answers, p)
  }

  /** The outcome of a key press: the page and where focus went, if it
      moved. */
  datatype KeyResult = KeyResult(page: LegacyPage, focus: Option<Coord>)

  /** The older `keydown` handler as written: Backspace on an empty input
      with a previous listed cell that has an input moves focus there,
      empties that input, and writes `''` under the key of the cell the key
      was pressed in; every other key is left alone. */
  function BackspaceAsWritten(cells: seq<Cell>, active: Option<LegacyWord>, pg: LegacyPage, at: Coord, key: Key): (r: KeyResult)
    ensures key != Backspace || Shown(pg.display, at) != "" ==> r == KeyResult(pg, None)
    ensures key == Backspace && Shown(pg.display, at) == "" ==> r.focus == FocusOn(LegacyPrev(cells, active, at))
    ensures r.focus.Some? ==>
      && r.focus == FocusOn(LegacyPrev(cells, active, at))
      && r.focus.value != at
      && Shown(r.page.display, r.focus.value) == ""
      && r.page.answers == pg.answers[at := ""]
      && r.page.display == pg.display[r.focus.value := ""]
      && Mirrors(r.page.slot, r.page.answers)
    ensures r.focus.None? ==> r.page == pg
  {
    if key != Backspace || Shown(pg.display, at) != "" then KeyResult(pg, None)
    else
      var target := FocusOn(LegacyPrev(cells, active, at));
      if target.None? then KeyResult(pg, None)
      else
        var q := target.value;
        var m := pg.answers[at := ""];
        KeyResult(LegacyPage(m, pg.display[q := ""], Stored(m)), Some(q))
  }

  /** As written, the emptied previous input keeps its letter in the
      answers: the stored copy and every check still see it. */
  lemma BackspaceKeepsErasedLetter(cells: seq<Cell>, active: Option<LegacyWord>, pg: LegacyPage, at: Coord)
    requires BackspaceAsWritten(cells, active, pg, at, Backspace).focus.Some?
    ensures var r := BackspaceAsWritten(cells, active, pg, at, Backspace);
      Shown(r.page.answers, r.focus.value) == Shown(pg.answers, r.focus.value)
  {
  }

  /** A two-cell word with `A` entered in its first cell and the cursor in
      the empty second one: after Backspace the first input is empty, yet
      its answer is still `A`. */
  lemma BackspaceLeavesStaleAnswer()
    ensures var w := LegacyWord(1, 0, 0, 2, "across", [(0, 0), (1, 0)]);
      var cells := [Cell(0, 0, "A", false), Cell(1, 0, "B", false)];
      var pg := LegacyPage(map[(0, 0) := "A"], map[(0, 0) := "A"], Stored(map[(0, 0) := "A"]));
      var r := BackspaceAsWritten(cells, Some(w), pg, (1, 0), Backspace);
      && InSync(pg)
      && r.focus == Some((0, 0))
      && Shown(r.page.display, (0, 0)) == ""
      && Shown(r.page.answers, (0, 0)) == "A"
      && !InSync(r.page)
  {
    var w := LegacyWord(1, 0, 0, 2, "across", [(0, 0), (1, 0)]);
    var cells := [Cell(0, 0, "A", false), Cell(1, 0, "B", false)];
    var pg := LegacyPage(map[(0, 0) := "A"], map[(0, 0) := "A"], Stored(map[(0, 0) := "A"]));
    assert !IsBlank("A") by { assert !IsSpace("A"[0]); }
    assert IndexOf(w.coords, (1, 0)) == 1;
    assert InSync(pg) by {
      forall p ensures Shown(pg.display, p) == Shown(pg.answers, p) { }
    }
    var r := BackspaceAsWritten(cells, Some(w), pg, (1, 0), Backspace);
    assert Shown(r.page.display, (0, 0)) != Shown(r.page.answers, (0, 0));
  }

  /** The handler as evidently meant: the `''` goes under the key of the
      previous cell, whose input is the one emptied. */
  function BackspaceCorrected(cells: seq<Cell>, active: Option<LegacyWord>, pg: LegacyPage, at: Coord, key: Key): (r: KeyResult)
    ensures key != Backspace || Shown(pg.display, at) != "" ==> r == KeyResult(pg, None)
    ensures key == Backspace && Shown(pg.display, at) == "" ==> r.focus == FocusOn(LegacyPrev(cells, active, at))
    ensures r.focus.Some? ==>
      && r.focus == FocusOn(LegacyPrev(cells, active, at))
      && Shown(r.page.display, r.focus.value) == "" && Shown(r.page.answers, r.focus.value) == ""
      && r.page.display == pg.display[r.focus.value := ""]
      && r.page.answers == pg.answers[r.focus.value := ""]
      && Mirrors(r.page.slot, r.page.answers)
    ensures r.focus.None? ==> r.page == pg
  {
    if key != Backspace || Shown(pg.display, at) != "" then KeyResult(pg, None)
    else
      var target := FocusOn(LegacyPrev(cells, active, at));
      if target.None? then KeyResult(pg, None)
      else
        var q := target.value;
        var m := pg.answers[q := ""];
        KeyResult(LegacyPage(m, pg.display[q := ""], Stored(m)), Some(q))
  }

  /** The corrected handler keeps every input showing its stored answer. */
  lemma BackspaceKeepsInSync(cells: seq<Cell>, active: Option<LegacyWord>, pg: LegacyPage, at: Coord, key: Key)
    requires InSync(pg)
    ensures InSync(BackspaceCorrected(cells, active, pg, at, key).page)
  {
    var r := BackspaceCorrected(cells, active, pg, at, key);
    if r.focus.Some? {
      forall p ensures Shown(r.page.display, p) == Shown(r.page.answers, p) {
        if p != r.focus.value {
          assert Shown(r.page.display, p) == Shown(pg.display, p);
        }
      }
    }
  }

  /** An entry of `''` reads as a missing one in every joined attempt, so
      the checks see an erased cell as empty. */
  lemma {:induction false} EmptyEntryReadsMissing(m: AnswerMap, at: Coord, coords: seq<Coord>, pad: string)
    ensures Attempt(m[at := ""], coords, pad) == Attempt(m - {at}, coords, pad)
    decreases |coords|
  {
    if coords != [] {
      EmptyEntryReadsMissing(m, at, coords[1..], pad);
    }
  }

  /** Start-up of the older page: the stored map is read (text that does
      not parse throws and stops the script) and storage is then always
      cleared. */
  function LegacyStart(slot: Slot): (r: Option<(AnswerMap, Slot)>)
    ensures r.None? <==> slot.Corrupt?
    ensures r.Some? ==> r.value.1 == Empty
    ensures slot.Stored? ==> r == Some((slot.answers, Empty))
    ensures slot.Empty? ==> r == Some((map[], Empty))
  {
    match slot
    case Corrupt => None
    case Empty => Some((map[], Empty))
    case Stored(m) => Some((m, Empty))
  }

  /** Unlike the shipped page, two reloads without input lose the answers. */
  lemma LegacyReloadForgets(m: AnswerMap)
    ensures LegacyStart(Stored(m)) == Some((m, Empty))
    ensures LegacyStart(LegacyStart(Stored(m)).value.1) == Some((map[], Empty))
  {
  }

  /** The older page's constant. */
  const LegacySolutionWord: string := "SINAPPI"

  /** The older `checkSolutionWord`: the entries at the solution points,
      missing and `''` ones contributing nothing, upper-cased, equal the
      word. */
  function LegacyCheckSolutionWord(m: AnswerMap): (ok: bool)
    ensures ok == CheckSolutionWord(m)
  {
    Upper(Attempt(m, SolutionCoords, "")) == LegacySolutionWord
  }

  /** The older submit gate pads missing letters with a blank. */
  function LegacySubmitGate(m: AnswerMap): bool {
    Upper(Attempt(m, SolutionCoords, " ")) == LegacySolutionWord
  }

  /** While every entry is at most one character, the gate opens exactly
      when the solution check passes. */
  lemma LegacyGateAgrees(m: AnswerMap)
    requires Short(m)
    ensures LegacySubmitGate(m) <==> LegacyCheckSolutionWord(m)
  {
    SolutionWordHasNoBlank();
    SpacePaddingAgrees(m, SolutionCoords, SolutionWord);
  }

  lemma SolutionWordHasNoBlank()
    ensures NoSpace(SolutionWord)
  {
    assert forall i :: 0 <= i < |SolutionWord| ==> SolutionWord[i] != ' ';
  }

  /** The older form asks for a name, an e-mail address and a phone
      number; it has no organization field. */
  datatype LegacyContact = LegacyContact(name: string, email: string, phone: string)

  datatype LegacySubmitOutcome =
    | GateClosed
    | FieldsMissing
    | Logged(contact: LegacyContact, answers: AnswerMap)

  /** The older submit button and form: the gate, then the three contact
      fields, then the whole answer map goes to the log. */
  function LegacySubmit(m: AnswerMap, contact: LegacyContact): (r: LegacySubmitOutcome)
    ensures r.Logged? <==> LegacySubmitGate(m) && contact.name != "" && contact.email != "" && contact.phone != ""
    ensures !LegacySubmitGate(m) ==> r == GateClosed
    ensures r.Logged? ==> r.contact == contact && r.answers == m
  {
    if !LegacySubmitGate(m) then GateClosed
    else if contact.name == "" || contact.email == "" || contact.phone == "" then FieldsMissing
    else Logged(contact, m)
  }

  /** The older check button divides by a fixed 106. */
  const LegacyTotal: nat := 106

  function LegacyCheckPercent(cells: seq<Cell>, m: AnswerMap): (r: int)
    ensures CorrectCountAsWritten(cells, m) <= LegacyTotal ==> 0 <= r <= 100
  {
    Percent(CorrectCountAsWritten(cells, m), LegacyTotal).value
  }

  /** On a grid of 106 cells with inputs, all answered, and no blank cell
      read as correct, the older check shows 100 %. */
  lemma LegacyPercentFull(cells: seq<Cell>, m: AnswerMap)
    requires TotalCells(cells) == LegacyTotal
    requires forall c :: c in cells && c.Fillable() ==> Correct(m, c)
    requires forall c :: c in cells && !c.isBlocked && IsBlank(c.letter) ==> !Correct(m, c)
    ensures LegacyCheckPercent(cells, m) == 100
  {
    AsWrittenAgreesOnSpaceBlanks(cells, m);
    PercentFull(LegacyTotal);
  }
}

=== FILE: navigation.dfy ===
/** Cursor movement on the shipped page: the cell after or before the
    current one along the active word, bounded by the word's ends, and the
    keys that use them. */
module Navigation {
  import opened Wrappers
  import opened Grid

  /** The coordinate that runs along the word's direction. */
  function Along(w: Word, p: Coord): int {
    if w.Dir() == Across then p.0 else p.1
  }

  /** One step forward (`delta == 1`) or back (`delta == -1`) along the
      word's direction, the other coordinate unchanged. */
  function Shift(w: Word, p: Coord, delta: int): Coord {
    if w.Dir() == Across then (p.0 + delta, p.1) else (p.0, p.1 + delta)
  }

  /** `findNextCell`: none without an active word or once the cursor is at
      or past the word's last position; otherwise the cell one step on, if
      the grid has one. The cursor itself is not checked against the word. */
  function FindNextCell(cells: seq<Cell>, active: Option<Word>, cur: Coord): (r: Option<Cell>)
    ensures active.None? ==> r.None?
    ensures active.Some? && Along(active.value, cur) >= Along(active.value, active.value.Step(0)) + active.value.length - 1
      ==> r.None?
    ensures r.Some? ==> r.value.Pos() == Shift(active.value, cur, 1)
    ensures active.Some? && Along(active.value, cur) < Along(active.value, active.value.Step(0)) + active.value.length - 1
      ==> (r.Some? <==> exists c :: c in cells && c.Pos() == Shift(active.value, cur, 1))
    ensures active.Some? && Along(active.value, cur) < Along(active.value, active.value.Step(0)) + active.value.length - 1
      ==> r == CellAt(cells, Shift(active.value, cur, 1).0, Shift(active.value, cur, 1).1)
  {
    match active
    case None => None
    case Some(w) =>
      if w.Dir() == Across then
        if cur.0 >= w.startX + w.length - 1 then None else CellAt(cells, cur.0 + 1, cur.1)
      else
        if cur.1 >= w.startY + w.length - 1 then None else CellAt(cells, cur.0, cur.1 + 1)
  }

  /** `findPrevCell`: the mirror image, bounded by the word's first
      position. */
  function FindPrevCell(cells: seq<Cell>, active: Option<Word>, cur: Coord): (r: Option<Cell>)
    ensures active.None? ==> r.None?
    ensures active.Some? && Along(active.value, cur) <= Along(active.value, active.value.Step(0)) ==> r.None?
    ensures r.Some? ==> r.value.Pos() == Shift(active.value, cur, -1)
    ensures active.Some? && Along(active.value, cur) > Along(active.value, active.value.Step(0))
      ==> (r.Some? <==> exists c :: c in cells && c.Pos() == Shift(active.value, cur, -1))
    ensures active.Some? && Along(active.value, cur) > Along(active.value, active.value.Step(0))
      ==> r == CellAt(cells, Shift(active.value, cur, -1).0, Shift(active.value, cur, -1).1)
  {
    match active
    case None => None
    case Some(w) =>
      if w.Dir() == Across then
        if cur.0 <= w.startX then None else CellAt(cells, cur.0 - 1, cur.1)
      else
        if cur.1 <= w.startY then None else CellAt(cells, cur.0, cur.1 - 1)
  }

  /** From a point of the active word, the next cell stays inside the word,
      and it exists whenever the grid has a cell there and the point is not
      the word's last. */
  lemma NextStaysInWord(cells: seq<Cell>, w: Word, cur: Coord)
    requires InWord(w, cur.0, cur.1)
    ensures FindNextCell(cells, Some(w), cur).Some? ==>
      InWord(w, FindNextCell(cells, Some(w), cur).value.x, FindNextCell(cells, Some(w), cur).value.y)
    ensures cur == w.Step(w.length - 1) ==> FindNextCell(cells, Some(w), cur).None?
  {
  }

  /** From a point of the active word, the previous cell stays inside the
      word, and there is none at the word's first point. */
  lemma PrevStaysInWord(cells: seq<Cell>, w: Word, cur: Coord)
    requires InWord(w, cur.0, cur.1)
    ensures FindPrevCell(cells, Some(w), cur).Some? ==>
      InWord(w, FindPrevCell(cells, Some(w), cur).value.x, FindPrevCell(cells, Some(w), cur).value.y)
    ensures cur == w.Step(0) ==> FindPrevCell(cells, Some(w), cur).None?
  {
  }

  /** Going forward and then back returns to the cell the cursor was on. */
  lemma NextThenPrev(cells: seq<Cell>, w: Word, cur: Coord)
    requires InWord(w, cur.0, cur.1)
    requires FindNextCell(cells, Some(w), cur).Some?
    ensures FindPrevCell(cells, Some(w), FindNextCell(cells, Some(w), cur).value.Pos())
      == CellAt(cells, cur.0, cur.1)
  {
  }

  /** Going back and then forward returns to the cell the cursor was on. */
  lemma PrevThenNext(cells: seq<Cell>, w: Word, cur: Coord)
    requires InWord(w, cur.0, cur.1)
    requires FindPrevCell(cells, Some(w), cur).Some?
    ensures FindNextCell(cells, Some(w), FindPrevCell(cells, Some(w), cur).value.Pos())
      == CellAt(cells, cur.0, cur.1)
  {
  }

  /** Only the far end is checked: a cursor on another row than an across
      word still moves, to a cell outside the word. */
  lemma NextIgnoresRow()
    ensures var w := Word(1, 0, 0, 4, "across");
      var cells := [Cell(0, 5, "A", false), Cell(1, 5, "B", false)];
      && !InWord(w, 0, 5)
      && FindNextCell(cells, Some(w), (0, 5)) == Some(Cell(1, 5, "B", false))
      && !InWord(w, 1, 5)
  {
  }

  datatype Key = ArrowLeft | ArrowRight | Backspace | OtherKey

  /** Focus moves only to a cell that has a text input. */
  function FocusOn(target: Option<Cell>): (r: Option<Coord>)
    ensures r.Some? <==> target.Some? && target.value.Fillable()
    ensures r.Some? ==> r.value == target.value.Pos()
  {
    if target.Some? && target.value.Fillable() then Some(target.value.Pos()) else None
  }

  /** The `keydown` handler of the input at `cur`, whose value is `value`:
      the point that receives focus, or none when focus stays. Backspace on
      an empty input and the left arrow go back, the right arrow goes
      forward, and every other key is left to the browser. */
  function KeyTarget(cells: seq<Cell>, active: Option<Word>, cur: Coord, key: Key, value: string): (r: Option<Coord>)
    ensures key == OtherKey || (key == Backspace && value != "") ==> r.None?
    ensures key == ArrowRight ==> r == FocusOn(FindNextCell(cells, active, cur))
    ensures key == ArrowLeft || (key == Backspace && value == "") ==>
      r == FocusOn(FindPrevCell(cells, active, cur))
  {
    match key
    case ArrowRight => FocusOn(FindNextCell(cells, active, cur))
    case ArrowLeft => FocusOn(FindPrevCell(cells, active, cur))
    case Backspace => if value == "" then FocusOn(FindPrevCell(cells, active, cur)) else None
    case OtherKey => None
  }
}

=== FILE: ratelimit.dfy ===
/** The submission function: a rate limit kept over two maps, from client
    address and from normalised e-mail address to the time of the last
    accepted submission, and the handler's ordered checks in front of the
    ticket it creates. */
module RateLimit {
  import opened Text
  import opened Wrappers

  /** Milliseconds in 24 hours. */
  const Day: int := 24 * 60 * 60 * 1000

  /** `submissionCache`: times in milliseconds since the epoch. */
  datatype RateState = RateState(ips: map<string, int>, emails: map<string, int>)

  const EmptyState: RateState := RateState(map[], map[])

  /** An entry blocks only when present with a truthy time: a time of 0
      reads as false. */
  predicate Blocks(m: map<string, int>, key: string) {
    key in m && m[key] != 0
  }

  /** The clean-up: exactly the entries older than `now - Day` go. */
  function Prune(m: map<string, int>, now: int): (r: map<string, int>)
    ensures forall k :: k in r <==> k in m && m[k] >= now - Day
    ensures forall k :: k in r ==> r[k] == m[k]
  {
    map k | k in m && !(m[k] < now - Day) :: m[k]
  }

  function PruneState(st: RateState, now: int): (r: RateState)
    ensures r.ips == Prune(st.ips, now) && r.emails == Prune(st.emails, now)
  {
    RateState(Prune(st.ips, now), Prune(st.emails, now))
  }

  /** Pruning twice at the same time is pruning once. */
  lemma PruneIdempotent(st: RateState, now: int)
    ensures PruneState(PruneState(st, now), now) == PruneState(st, now)
  {
  }

  datatype Refusal = SameIp | SameEmail

  datatype RateResult = Allowed | Refused(reason: Refusal)

  /** `checkRateLimit`: prune, then refuse a recorded address, then a
      recorded e-mail, compared lower-cased; nothing is recorded. */
  function CheckRateLimit(st: RateState, ip: string, email: string, now: int): (r: (RateResult, RateState))
    ensures r.1 == PruneState(st, now)
    ensures Blocks(r.1.ips, ip) ==> r.0 == Refused(SameIp)
    ensures !Blocks(r.1.ips, ip) && Blocks(r.1.emails, Lower(email)) ==> r.0 == Refused(SameEmail)
    ensures r.0 == Allowed <==> !Blocks(r.1.ips, ip) && !Blocks(r.1.emails, Lower(email))
  {
    var pruned := PruneState(st, now);
    if Blocks(pruned.ips, ip) then (Refused(SameIp), pruned)
    else if Blocks(pruned.emails, Lower(email)) then (Refused(SameEmail), pruned)
    else (Allowed, pruned)
  }

  /** `recordSubmission`: both entries set to `now`, the e-mail
      lower-cased; every other entry unchanged. */
  function Record(st: RateState, ip: string, email: string, now: int): (r: RateState)
    ensures ip in r.ips && r.ips[ip] == now
    ensures Lower(email) in r.emails && r.emails[Lower(email)] == now
    ensures forall k :: k != ip ==> (k in r.ips <==> k in st.ips) && (k in st.ips ==> r.ips[k] == st.ips[k])
    ensures forall k :: k != Lower(email) ==>
      (k in r.emails <==> k in st.emails) && (k in st.emails ==> r.emails[k] == st.emails[k])
  {
    RateState(st.ips[ip := now], st.emails[Lower(email) := now])
  }

  /** A submission recorded at a non-zero time `t` refuses the same address
      at any check up to a day later. */
  lemma RecordedIpRefused(st: RateState, ip: string, email: string, ip2: string, email2: string, t: int, now: int)
    requires t != 0 && now - Day <= t
    requires ip2 == ip
    ensures CheckRateLimit(Record(st, ip, email, t), ip2, email2, now).0 == Refused(SameIp)
  {
  }

  /** It refuses the same e-mail too, in any case, from another address
      that is not recorded. */
  lemma RecordedEmailRefused(st: RateState, ip: string, email: string, ip2: string, email2: string, t: int, now: int)
    requires t != 0 && now - Day <= t
    requires Lower(email2) == Lower(email)
    requires !Blocks(PruneState(Record(st, ip, email, t), now).ips, ip2)
    ensures CheckRateLimit(Record(st, ip, email, t), ip2, email2, now).0 == Refused(SameEmail)
  {
  }

  /** More than a day later the record has gone and no longer refuses. */
  lemma RecordExpires(st: RateState, ip: string, email: string, t: int, now: int)
    requires now - Day > t
    ensures ip !in CheckRateLimit(Record(st, ip, email, t), ip, email, now).1.ips
    ensures Lower(email) !in CheckRateLimit(Record(st, ip, email, t), ip, email, now).1.emails
  {
  }

  /** A body field as `JSON.parse` leaves it: missing or falsy, a string,
      or some other truthy value (a number, an object) with no `trim`. */
  datatype Field = Falsy | Str(s: string) | OtherTruthy

  /** The request body: text that does not parse (or parses to `null`), or
      the three required fields. */
  datatype Body = Unparsable | Parsed(name: Field, email: Field, phone: Field)

  /** The request: its method, the two forwarding headers (`""` standing
      for absent) and the platform's source address, which is `None` when
      the request carries no request context to read it from. */
  datatype Request = Request(httpMethod: string, forwardedFor: string, realIp: string, sourceIp: Option<string>, body: Body)

  /** The first non-empty of the two headers and the source address, or
      `"unknown"`; `None` when the headers are empty and reading the source
      address throws for want of a request context. */
  function ClientIp(req: Request): (ip: Option<string>)
    ensures ip.Some? ==> ip.value != ""
    ensures ip.None? <==> req.forwardedFor == "" && req.realIp == "" && req.sourceIp.None?
    ensures req.forwardedFor != "" ==> ip == Some(req.forwardedFor)
    ensures req.forwardedFor == "" && req.realIp != "" ==> ip == Some(req.realIp)
    ensures req.forwardedFor == "" && req.realIp == "" && req.sourceIp.Some? ==>
      ip == Some(if req.sourceIp.value != "" then req.sourceIp.value else "unknown")
  {
    if req.forwardedFor != "" then Some(req.forwardedFor)
    else if req.realIp != "" then Some(req.realIp)
    else match req.sourceIp
      case None => None
      case Some(src) => Some(if src != "" then src else "unknown")
  }

  /** The e-mail as the limiter keys it. */
  function NormEmail(s: string): (r: string)
    ensures |r| == |Trim(s)| && forall i :: 0 <= i < |r| ==> r[i] == LowerChar(Trim(s)[i])
    ensures IsLowerCased(r)
    ensures Lower(r) == r
  {
    LowerIdempotent(Trim(s));
    Lower(Trim(s))
  }

  datatype Response =
    | MethodNotAllowed
    | MissingField(field: string)
    | TooManyRequests(reason: Refusal)
    | ServerError
    | Created

  /** The HTTP status code of a response. */
  function Status(r: Response): int {
    match r
    case MethodNotAllowed => 405
    case MissingField(_) => 400
    case TooManyRequests(_) => 429
    case ServerError => 500
    case Created => 200
  }

  datatype FieldCheck = Present | Missing | Throws

  /** `!data[field] || !data[field].trim()`: a falsy field or a blank
      string is missing, and a truthy value that is not a string has no
      `trim` to call. */
  function CheckField(f: Field): (r: FieldCheck)
    ensures r == Missing <==> f.Falsy? || (f.Str? && IsBlank(f.s))
    ensures r == Throws <==> f.OtherTruthy?
  {
    match f
    case Falsy => Missing
    case OtherTruthy => Throws
    case Str(s) => if s == "" || Trim(s) == "" then Missing else Present
  }

  /** The verdict of the loop over name, e-mail and phone, in that order:
      the first field that is missing is reported, and one that throws
      ends the handler. */
  datatype FieldsVerdict = AllPresent | Report(field: string) | Crash

  function CheckFields(name: Field, email: Field, phone: Field): (r: FieldsVerdict)
    ensures r == AllPresent <==>
      CheckField(name) == Present && CheckField(email) == Present && CheckField(phone) == Present
    ensures r == Report("name") <==> CheckField(name) == Missing
    ensures r == Report("email") <==> CheckField(name) == Present && CheckField(email) == Missing
    ensures r == Report("phone") <==>
      CheckField(name) == Present && CheckField(email) == Present && CheckField(phone) == Missing
    ensures r.Report? ==> r.field in ["name", "email", "phone"]
  {
    match CheckField(name)
    case Missing => Report("name")
    case Throws => Crash
    case Present =>
      match CheckField(email)
      case Missing => Report("email")
      case Throws => Crash
      case Present =>
        match CheckField(phone)
        case Missing => Report("phone")
        case Throws => Crash
        case Present => AllPresent
  }

  /** What follows the fields: the rate limit on the normalised e-mail,
      then the ticket, and the record only once it exists. */
  function AfterFields(st: RateState, ip: string, email: string, now: int, ticketOk: bool, recordedAt: int): (r: (Response, RateState))
    ensures r.0 == Created <==> CheckRateLimit(st, ip, NormEmail(email), now).0 == Allowed && ticketOk
    ensures r.0 == Created ==> r.1 == Record(PruneState(st, now), ip, NormEmail(email), recordedAt)
    ensures r.0 != Created ==> r.1 == PruneState(st, now)
    ensures r.0.TooManyRequests? <==> CheckRateLimit(st, ip, NormEmail(email), now).0.Refused?
    ensures r.0.TooManyRequests? ==> r.0.reason == CheckRateLimit(st, ip, NormEmail(email), now).0.reason
    ensures r.0 == Created || r.0 == ServerError || r.0.TooManyRequests?
  {
    var norm := NormEmail(email);
    var (check, pruned) := CheckRateLimit(st, ip, norm, now);
    if check.Refused? then (TooManyRequests(check.reason), pruned)
    else if !ticketOk then (ServerError, pruned)
    else (Created, Record(pruned, ip, norm, recordedAt))
  }

  /** The handler. A method other than POST is refused before anything
      else; a body that does not parse, or a client address that cannot be
      read, is a server error; the fields are
      checked in the order name, e-mail, phone; then the rate limit (which
      prunes); then the ticket, whose creation may fail. Only a created
      ticket records the submission, at `recordedAt`. */
  function Handle(st: RateState, req: Request, now: int, ticketOk: bool, recordedAt: int): (r: (Response, RateState))
    ensures req.httpMethod != "POST" ==> r == (MethodNotAllowed, st)
    ensures req.httpMethod == "POST" && (req.body.Unparsable? || ClientIp(req).None?) ==> r == (ServerError, st)
    ensures (req.httpMethod == "POST" && req.body.Parsed? && ClientIp(req).Some?
      && CheckFields(req.body.name, req.body.email, req.body.phone) == Crash) ==> r == (ServerError, st)
    ensures r.0.MissingField? ==> r.1 == st && r.0.field in ["name", "email", "phone"]
    ensures r.0 == Created ==> (req.body.Parsed? &&
      CheckFields(req.body.name, req.body.email, req.body.phone) == AllPresent)
    ensures r.0 != Created ==> r.1 == st || r.1 == PruneState(st, now)
  {
    if req.httpMethod != "POST" then (MethodNotAllowed, st)
    else if req.body.Unparsable? || ClientIp(req).None? then (ServerError, st)
    else match CheckFields(req.body.name, req.body.email, req.body.phone)
      case Report(f) => (MissingField(f), st)
      case Crash => (ServerError, st)
      case AllPresent => AfterFields(st, ClientIp(req).value, req.body.email.s, now, ticketOk, recordedAt)
  }

  /** A request that reaches the rate limit: POST, a parsed body, a
      readable client address, all three fields present. */
  predicate Admitted(req: Request) {
    req.httpMethod == "POST" && req.body.Parsed? && ClientIp(req).Some?
    && CheckFields(req.body.name, req.body.email, req.body.phone) == AllPresent
  }

  /** An admitted request goes on to the rate limit and the ticket. */
  lemma AdmittedReachesLimit(st: RateState, req: Request, now: int, ticketOk: bool, recordedAt: int)
    requires Admitted(req)
    ensures Handle(st, req, now, ticketOk, recordedAt)
      == AfterFields(st, ClientIp(req).value, req.body.email.s, now, ticketOk, recordedAt)
  {
  }

  /** The first failing field is the one named: a blank name is reported
      whatever the other two hold. */
  lemma FirstMissingFieldNamed(st: RateState, req: Request, now: int, ticketOk: bool, recordedAt: int)
    requires req.httpMethod == "POST" && req.body.Parsed? && ClientIp(req).Some?
    requires CheckField(req.body.name) == Missing
    ensures Handle(st, req, now, ticketOk, recordedAt) == (MissingField("name"), st)
  {
  }

  /** With a present name and a missing e-mail, the e-mail is named. */
  lemma SecondMissingFieldNamed(st: RateState, req: Request, now: int, ticketOk: bool, recordedAt: int)
    requires req.httpMethod == "POST" && req.body.Parsed? && ClientIp(req).Some?
    requires CheckField(req.body.name) == Present && CheckField(req.body.email) == Missing
    ensures Handle(st, req, now, ticketOk, recordedAt) == (MissingField("email"), st)
  {
  }

  /** With name and e-mail present and a missing phone, the phone is
      named. */
  lemma ThirdMissingFieldNamed(st: RateState, req: Request, now: int, ticketOk: bool, recordedAt: int)
    requires req.httpMethod == "POST" && req.body.Parsed? && ClientIp(req).Some?
    requires CheckField(req.body.name) == Present && CheckField(req.body.email) == Present
    requires CheckField(req.body.phone) == Missing
    ensures Handle(st, req, now, ticketOk, recordedAt) == (MissingField("phone"), st)
  {
  }

  /** A failed ticket leaves only the pruning behind. */
  lemma FailedTicketRecordsNothing(st: RateState, req: Request, now: int, recordedAt: int)
    requires Admitted(req)
    ensures Handle(st, req, now, false, recordedAt).1 == PruneState(st, now)
    ensures Handle(st, req, now, false, recordedAt).0 != Created
  {
  }

  /** Two admitted requests from the same client address within a day,
      the first accepted: the second is refused with 429, for the address,
      and leaves only the pruning behind. */
  lemma SecondFromSameIpRefused(st: RateState, req1: Request, req2: Request, t1: int, t2: int, now2: int)
    requires t2 != 0 && now2 - Day <= t2
    requires Admitted(req1) && Admitted(req2) && ClientIp(req2) == ClientIp(req1)
    requires Handle(st, req1, t1, true, t2).0 == Created
    ensures var st1 := Handle(st, req1, t1, true, t2).1;
      Handle(st1, req2, now2, true, now2) == (TooManyRequests(SameIp), PruneState(st1, now2))
  {
    AdmittedReachesLimit(st, req1, t1, true, t2);
    var st1 := Handle(st, req1, t1, true, t2).1;
    AdmittedReachesLimit(st1, req2, now2, true, now2);
    var ip := ClientIp(req1).value;
    assert ip in st1.ips && st1.ips[ip] == t2;
    assert Blocks(PruneState(st1, now2).ips, ip);
  }

  /** From an address not on record, the same e-mail in other case and
      with other surrounding blanks is refused within a day, for the
      e-mail. */
  lemma SecondWithSameEmailRefused(st: RateState, req1: Request, req2: Request, t1: int, t2: int, now2: int)
    requires t2 != 0 && now2 - Day <= t2
    requires Admitted(req1) && Admitted(req2)
    requires NormEmail(req2.body.email.s) == NormEmail(req1.body.email.s)
    requires Handle(st, req1, t1, true, t2).0 == Created
    requires !Blocks(PruneState(Handle(st, req1, t1, true, t2).1, now2).ips, ClientIp(req2).value)
    ensures var st1 := Handle(st, req1, t1, true, t2).1;
      Handle(st1, req2, now2, true, now2).0 == TooManyRequests(SameEmail)
  {
    AdmittedReachesLimit(st, req1, t1, true, t2);
    var st1 := Handle(st, req1, t1, true, t2).1;
    AdmittedReachesLimit(st1, req2, now2, true, now2);
    var e := NormEmail(req1.body.email.s);
    assert Lower(e) == e;
    assert e in st1.emails && st1.emails[e] == t2;
    assert Blocks(PruneState(st1, now2).emails, Lower(NormEmail(req2.body.email.s)));
  }

  /** The converse: in a fresh instance the first admitted submission with
      a ticket is accepted, and after it a request from another address
      with an e-mail that differs after trimming and lower-casing is let
      through, and with a ticket it is created. */
  lemma {:induction false} OtherEmailAllowed(req1: Request, req2: Request, t1: int, t2: int, now2: int)
    requires Admitted(req1) && Admitted(req2)
    requires ClientIp(req2) != ClientIp(req1)
    requires Lower(Trim(req2.body.email.s)) != Lower(Trim(req1.body.email.s))
    ensures Handle(EmptyState, req1, t1, true, t2).0 == Created
    ensures var st1 := Handle(EmptyState, req1, t1, true, t2).1;
      && CheckRateLimit(st1, ClientIp(req2).value, NormEmail(req2.body.email.s), now2).0 == Allowed
      && Handle(st1, req2, now2, true, now2).0 == Created
  {
    var ip1, e1 := ClientIp(req1).value, NormEmail(req1.body.email.s);
    var ip2, e2 := ClientIp(req2).value, NormEmail(req2.body.email.s);
    FirstAccepted(req1, t1, t2);
    var st1 := RateState(map[ip1 := t2], map[e1 := t2]);
    assert Handle(EmptyState, req1, t1, true, t2).1 == st1;
    assert Lower(e2) == e2 && e2 != e1;
    OnlyRecordBlocks(ip1, e1, t2, ip2, e2, now2);
    AllowedIsCreated(st1, req2, now2);
  }

  /** In a fresh instance an admitted submission with a ticket is created
      and leaves exactly its own two records. */
  lemma {:induction false} FirstAccepted(req: Request, now: int, recordedAt: int)
    requires Admitted(req)
    ensures Handle(EmptyState, req, now, true, recordedAt)
      == (Created, RateState(map[ClientIp(req).value := recordedAt], map[NormEmail(req.body.email.s) := recordedAt]))
  {
    AdmittedReachesLimit(EmptyState, req, now, true, recordedAt);
    var ip, e := ClientIp(req).value, NormEmail(req.body.email.s);
    assert PruneState(EmptyState, now) == EmptyState;
    assert CheckRateLimit(EmptyState, ip, e, now).0 == Allowed;
  }

  /** An admitted request the limiter lets through is created when the
      ticket succeeds. */
  lemma {:induction false} AllowedIsCreated(st: RateState, req: Request, now: int)
    requires Admitted(req)
    requires CheckRateLimit(st, ClientIp(req).value, NormEmail(req.body.email.s), now).0 == Allowed
    ensures Handle(st, req, now, true, now).0 == Created
  {
    AdmittedReachesLimit(st, req, now, true, now);
  }

  /** A single record blocks nothing but its own address and e-mail. */
  lemma {:induction false} OnlyRecordBlocks(ip1: string, e1: string, t: int, ip2: string, e2: string, now: int)
    requires ip2 != ip1 && Lower(e2) != e1
    ensures CheckRateLimit(RateState(map[ip1 := t], map[e1 := t]), ip2, e2, now).0 == Allowed
  {
    var pruned := PruneState(RateState(map[ip1 := t], map[e1 := t]), now);
    assert pruned.ips.Keys <= {ip1};
    assert pruned.emails.Keys <= {e1};
  }

  /** Case does not tell e-mails apart. */
  lemma NormEmailIgnoresCase(a: string, b: string)
    requires Lower(a) == Lower(b)
    ensures NormEmail(a) == NormEmail(b)
  {
    LowerTrim(a);
    LowerTrim(b);
  }

  /** Nor do blanks around them. */
  lemma NormEmailIgnoresBlanks(s: string)
    ensures NormEmail(Trim(s)) == NormEmail(s)
  {
    TrimIdempotent(s);
  }
}

=== FILE: session.dfy ===
/** The shipped page as one state machine: the answers and their stored
    copy, the highlighted word, the focused input and the submit button,
    moved by the page's events; and the gate in front of the submission
    form. */
module Session {
  import opened Text
  import opened Wrappers
  import opened Grid
  import opened Answers
  import opened Highlight
  import opened Navigation
  import opened Checking

  datatype Session = Session(
    answers: AnswerMap,
    slot: Slot,
    hl: State,
    focus: Option<Coord>,
    submitEnabled: bool)
  {
    /** The stored copy mirrors the answers and a remembered click has its
        word. */
    predicate Valid() { Mirrors(slot, answers) && hl.Valid() }
  }

  /** Page start-up: the stored answers are restored, nothing is
      highlighted or focused, and the submit button is disabled. */
  function Start(slot: Slot): (s: Session)
    ensures s.Valid()
    ensures !s.submitEnabled && s.hl == Initial && s.focus.None?
    ensures slot.Stored? ==> s.answers == slot.answers
  {
    var (m, slot') := Hydrate(slot);
    Session(m, slot', Initial, None, false)
  }

  datatype Event =
    | CellClicked(x: int, y: int)
    | Typed(value: string)
    | KeyPressed(key: Key)
    | ClearClicked(confirmed: bool)
    | CheckClicked
    | CheckSolutionClicked

  /** Focus moves to `target` when there is one, and stays otherwise. */
  function MoveFocus(focus: Option<Coord>, target: Option<Coord>): (r: Option<Coord>)
    ensures target.Some? ==> r == target
    ensures target.None? ==> r == focus
  {
    if target.Some? then target else focus
  }

  /** One event. A click reaches only a cell with an input: it runs the
      click handler and focuses the input. Typing and keys act on the
      focused input; a typed letter moves focus along the active word. The
      clear button empties the answers and disables submission, the check
      button enables submission exactly when the solution word is right,
      and the solution button enables it when the word is right and leaves
      it alone otherwise. */
  function Step(p: Puzzle, s: Session, e: Event): (r: Session)
    requires s.Valid()
    ensures r.Valid()
    ensures e.CellClicked? ==>
      var c := CellAt(p.cells, e.x, e.y);
      if c.Some? && c.value.Fillable() then
        r.hl == Click(p.words, s.hl, e.x, e.y) && r.focus == Some((e.x, e.y)) && r.answers == s.answers
      else r == s
    ensures e.Typed? && s.focus.Some? ==>
      r.answers == OnInput(s.answers, s.focus.value, e.value).0 && r.hl == s.hl
    ensures e.Typed? && s.focus.Some? && e.value != "" ==>
      r.focus == MoveFocus(s.focus, FocusOn(FindNextCell(p.cells, s.hl.active, s.focus.value)))
    ensures e.Typed? && s.focus.Some? && e.value == "" ==> r.focus == s.focus
    ensures (e.Typed? || e.KeyPressed?) && s.focus.None? ==> r == s
    ensures e.KeyPressed? ==> r.answers == s.answers && r.slot == s.slot && r.hl == s.hl
    ensures e.KeyPressed? && s.focus.Some? ==>
      r.focus == MoveFocus(s.focus, KeyTarget(p.cells, s.hl.active, s.focus.value, e.key, Shown(s.answers, s.focus.value)))
    ensures e.CellClicked? || e.Typed? || e.KeyPressed? ==>
      && r.submitEnabled == s.submitEnabled
      && r.slot == (if e.Typed? && s.focus.Some? then OnInput(s.answers, s.focus.value, e.value).1 else s.slot)
    ensures e.ClearClicked? && e.confirmed ==> r.answers == map[] && r.slot == Empty && !r.submitEnabled
    ensures e.ClearClicked? && !e.confirmed ==> r == s
    ensures e.CheckClicked? ==> r == s.(submitEnabled := CheckSolutionWord(s.answers))
    ensures e.CheckSolutionClicked? ==>
      r == s.(submitEnabled := s.submitEnabled || Upper(Attempt(s.answers, SolutionCoords, " ")) == SolutionWord)
  {
    match e
    case CellClicked(x, y) =>
      var c := CellAt(p.cells, x, y);
      if c.Some? && c.value.Fillable() then
        s.(hl := Click(p.words, s.hl, x, y), focus := Some((x, y)))
      else s
    case Typed(value) =>
      if s.focus.None? then s
      else
        var at := s.focus.value;
        var (m, slot) := OnInput(s.answers, at, value);
        var focus := if value != "" then MoveFocus(s.focus, FocusOn(FindNextCell(p.cells, s.hl.active, at))) else s.focus;
        s.(answers := m, slot := slot, focus := focus)
    case KeyPressed(key) =>
      if s.focus.None? then s
      else
        var at := s.focus.value;
        s.(focus := MoveFocus(s.focus, KeyTarget(p.cells, s.hl.active, at, key, Shown(s.answers, at))))
    case ClearClicked(confirmed) =>
      if confirmed then
        var (m, slot) := OnClear(s.answers, s.slot, true);
        s.(answers := m, slot := slot, submitEnabled := false)
      else s
    case CheckClicked =>
      s.(submitEnabled := CheckSolutionWord(s.answers))
    case CheckSolutionClicked =>
      if Upper(Attempt(s.answers, SolutionCoords, " ")) == SolutionWord then s.(submitEnabled := true) else s
  }

  /** A run of events from a valid state. */
  function Run(p: Puzzle, s: Session, es: seq<Event>): (r: Session)
    requires s.Valid()
    ensures r.Valid()
    decreases |es|
  {
    if es == [] then s else Run(p, Step(p, s, es[0]), es[1..])
  }

  /** However the events run, reloading the page restores the answers the
      player left. */
  lemma {:induction false} RunKeepsStoredCopy(p: Puzzle, s: Session, es: seq<Event>)
    requires s.Valid()
    ensures Start(Run(p, s, es).slot).answers == Run(p, s, es).answers
    decreases |es|
  {
    var r := Run(p, s, es);
    assert Mirrors(r.slot, r.answers);
  }

  /** Every cell of word `w` is in the grid and has an input. */
  predicate Typeable(cells: seq<Cell>, w: Word) {
    forall j :: 0 <= j < w.length ==>
      CellAt(cells, w.Step(j).0, w.Step(j).1).Some? && CellAt(cells, w.Step(j).0, w.Step(j).1).value.Fillable()
  }

  /** One letter per event, each typed into the focused input. */
  function TypeLetters(letters: seq<char>): (es: seq<Event>)
    ensures |es| == |letters|
    ensures forall i :: 0 <= i < |letters| ==> es[i] == Typed([letters[i]])
  {
    seq(|letters|, i requires 0 <= i < |letters| => Typed([letters[i]]))
  }

  /** Typing one letter at point `k` of the active word stores it
      upper-cased and moves focus to point `k + 1`, or keeps it on the last
      point. */
  lemma TypeOne(p: Puzzle, s: Session, w: Word, k: int, c: char)
    requires s.Valid() && s.hl.active == Some(w) && Typeable(p.cells, w)
    requires 0 <= k < w.length && s.focus == Some(w.Step(k))
    ensures var r := Step(p, s, Typed([c]));
      && r.answers == s.answers[w.Step(k) := Upper([c])]
      && r.hl == s.hl
      && r.focus == Some(w.Step(if k + 1 < w.length then k + 1 else k))
  {
    var r := Step(p, s, Typed([c]));
    var at := w.Step(k);
    var next := FindNextCell(p.cells, s.hl.active, at);
    if k + 1 < w.length {
      var q := w.Step(k + 1);
      assert next == CellAt(p.cells, q.0, q.1);
    } else {
      assert next.None?;
    }
  }

  /** The answers after writing `letters`, upper-cased, one per point of
      `w` from point `k` on. */
  function Filled(m: AnswerMap, w: Word, k: int, letters: seq<char>): AnswerMap
    decreases |letters|
  {
    if letters == [] then m else Filled(m[w.Step(k) := Upper([letters[0]])], w, k + 1, letters[1..])
  }

  /** The points of `w` from `k` up to, not including, `k + n`. */
  function Span(w: Word, k: int, n: nat): set<Coord> {
    set i | k <= i < k + n :: w.Step(i)
  }

  /** Each letter lands on its own point: the `i`-th letter on point
      `k + i`. */
  lemma {:induction false} FilledAt(m: AnswerMap, w: Word, k: int, letters: seq<char>, j: int)
    requires k <= j < k + |letters|
    ensures var r := Filled(m, w, k, letters);
      w.Step(j) in r && r[w.Step(j)] == Upper([letters[j - k]])
    decreases |letters|
  {
    var m1 := m[w.Step(k) := Upper([letters[0]])];
    if j > k {
      FilledAt(m1, w, k + 1, letters[1..], j);
      assert letters[1..][j - (k + 1)] == letters[j - k];
    } else {
      FilledFrame(m1, w, k + 1, letters[1..], w.Step(k));
    }
  }

  /** Every point outside the span keeps its answer. */
  lemma {:induction false} FilledFrame(m: AnswerMap, w: Word, k: int, letters: seq<char>, q: Coord)
    requires q !in Span(w, k, |letters|)
    ensures var r := Filled(m, w, k, letters);
      (q in r <==> q in m) && (q in m ==> q in r && r[q] == m[q])
    decreases |letters|
  {
    if letters != [] {
      var m1 := m[w.Step(k) := Upper([letters[0]])];
      assert q != w.Step(k);
      FilledFrame(m1, w, k + 1, letters[1..], q);
    }
  }

  /** Typing `letters` from point `k` of the active word, with every point
      of the word open for input, writes the letters upper-cased over the
      word's points from `k` on, keeps the active word, and leaves focus on
      the point after the last letter, or on the word's last point. */
  lemma {:induction false} TypingFillsWord(p: Puzzle, s: Session, w: Word, k: int, letters: seq<char>)
    requires s.Valid() && s.hl.active == Some(w) && Typeable(p.cells, w)
    requires 0 <= k < w.length && k + |letters| <= w.length && s.focus == Some(w.Step(k))
    ensures var r := Run(p, s, TypeLetters(letters));
      && r.hl == s.hl
      && r.answers == Filled(s.answers, w, k, letters)
      && r.focus == Some(w.Step(FocusAfter(w, k, |letters|)))
    decreases |letters|
  {
    if letters == [] {
      TypedNothing(p, s, w, k);
    } else {
      var s1 := TypeFirst(p, s, w, k, letters);
      if |letters| == 1 {
        TypedNothing(p, s1, w, k + 1);
      } else {
        TypingFillsWord(p, s1, w, k + 1, letters[1..]);
      }
      TypedRest(p, s, s1, w, k, letters);
    }
  }

  /** Typing nothing changes nothing. */
  lemma TypedNothing(p: Puzzle, s: Session, w: Word, k: int)
    requires s.Valid() && s.focus == Some(w.Step(FocusAfter(w, k, 0)))
    ensures var r := Run(p, s, TypeLetters([]));
      && r.hl == s.hl
      && r.answers == Filled(s.answers, w, k, [])
      && r.focus == Some(w.Step(FocusAfter(w, k, 0)))
  {
    assert TypeLetters([]) == [];
  }

  /** The step of the induction: what the rest of the letters do from the
      state after the first is what all of them do. */
  lemma TypedRest(p: Puzzle, s: Session, s1: Session, w: Word, k: int, letters: seq<char>)
    requires s.Valid() && s1.Valid() && letters != [] && s1.hl == s.hl
    requires Filled(s.answers, w, k, letters) == Filled(s1.answers, w, k + 1, letters[1..])
    requires Run(p, s, TypeLetters(letters)) == Run(p, s1, TypeLetters(letters[1..]))
    requires var r1 := Run(p, s1, TypeLetters(letters[1..]));
      && r1.hl == s1.hl
      && r1.answers == Filled(s1.answers, w, k + 1, letters[1..])
      && r1.focus == Some(w.Step(FocusAfter(w, k + 1, |letters[1..]|)))
    ensures var r := Run(p, s, TypeLetters(letters));
      && r.hl == s.hl
      && r.answers == Filled(s.answers, w, k, letters)
      && r.focus == Some(w.Step(FocusAfter(w, k, |letters|)))
  {
    assert FocusAfter(w, k + 1, |letters[1..]|) == FocusAfter(w, k, |letters|);
  }

  /** The point focus rests on after `n` letters typed from point `k`: the
      next point, or the word's last. */
  function FocusAfter(w: Word, k: int, n: nat): int {
    if k + n < w.length then k + n else w.length - 1
  }

  /** The state after the first typed letter, and the run from there. */
  lemma TypeFirst(p: Puzzle, s: Session, w: Word, k: int, letters: seq<char>) returns (s1: Session)
    requires s.Valid() && s.hl.active == Some(w) && Typeable(p.cells, w)
    requires 0 <= k < w.length && letters != [] && s.focus == Some(w.Step(k))
    ensures s1.Valid() && s1.hl == s.hl && s1.hl.active == Some(w)
    ensures s1.focus == Some(w.Step(FocusAfter(w, k + 1, 0)))
    ensures Filled(s.answers, w, k, letters) == Filled(s1.answers, w, k + 1, letters[1..])
    ensures Run(p, s, TypeLetters(letters)) == Run(p, s1, TypeLetters(letters[1..]))
  {
    s1 := Step(p, s, Typed([letters[0]]));
    TypeOne(p, s, w, k, letters[0]);
    assert s1.answers == s.answers[w.Step(k) := Upper([letters[0]])];
    assert FocusAfter(w, k + 1, 0) == if k + 1 < w.length then k + 1 else k;
    RunTypedFirst(p, s, letters);
  }

  /** A run of typed letters starts with the first letter's event. */
  lemma RunTypedFirst(p: Puzzle, s: Session, letters: seq<char>)
    requires s.Valid() && letters != []
    ensures Run(p, s, TypeLetters(letters)) == Run(p, Step(p, s, Typed([letters[0]])), TypeLetters(letters[1..]))
  {
    var es := TypeLetters(letters);
    assert es[0] == Typed([letters[0]]);
    assert es[1..] == TypeLetters(letters[1..]);
  }

  /** What typing along a word does to the answers, point by point: the
      `i`-th letter, upper-cased, on point `k + i`, and every other point
      as it was. */
  lemma TypingFillsWordPointwise(p: Puzzle, s: Session, w: Word, k: int, letters: seq<char>)
    requires s.Valid() && s.hl.active == Some(w) && Typeable(p.cells, w)
    requires 0 <= k < w.length && k + |letters| <= w.length && s.focus == Some(w.Step(k))
    ensures var r := Run(p, s, TypeLetters(letters)).answers;
      && (forall j :: k <= j < k + |letters| ==> w.Step(j) in r && r[w.Step(j)] == Upper([letters[j - k]]))
      && (forall q :: q !in Span(w, k, |letters|) ==>
            (q in r <==> q in s.answers) && (q in s.answers ==> q in r && r[q] == s.answers[q]))
  {
    TypingFillsWord(p, s, w, k, letters);
    forall j | k <= j < k + |letters|
      ensures var r := Filled(s.answers, w, k, letters);
        w.Step(j) in r && r[w.Step(j)] == Upper([letters[j - k]])
    {
      FilledAt(s.answers, w, k, letters, j);
    }
    forall q | q !in Span(w, k, |letters|)
      ensures var r := Filled(s.answers, w, k, letters);
        (q in r <==> q in s.answers) && (q in s.answers ==> q in r && r[q] == s.answers[q])
    {
      FilledFrame(s.answers, w, k, letters, q);
    }
  }

  /** The contact fields of the submission form. */
  datatype Contact = Contact(name: string, email: string, phone: string, organization: string)

  /** The payload posted to the webhook, less the submission time. */
  datatype Submission = Submission(contact: Contact, percent: Option<int>, solutionWord: string)

  datatype SubmitOutcome =
    | WrongSolution
    | MissingFields
    | Send(payload: Submission)

  /** The submit button and then the form's send button: a wrong solution
      word stops at the first, an empty name, e-mail or phone at the
      second; otherwise the payload carries the percentage counted over the
      cells with inputs and the letters at the solution points, a missing
      one as a blank. */
  function Submit(p: Puzzle, m: AnswerMap, contact: Contact): (r: SubmitOutcome)
    ensures r.Send? <==> CheckSolutionWord(m) && contact.name != "" && contact.email != "" && contact.phone != ""
    ensures !CheckSolutionWord(m) ==> r == WrongSolution
    ensures r.Send? ==>
      && r.payload.contact == contact
      && r.payload.percent == CheckReport(p.cells, m).percent
      && r.payload.solutionWord == Attempt(m, SolutionCoords, " ")
  {
    if !CheckSolutionWord(m) then WrongSolution
    else if contact.name == "" || contact.email == "" || contact.phone == "" then MissingFields
    else Send(Submission(contact, Percent(CorrectCount(p.cells, m), TotalCells(p.cells)), Attempt(m, SolutionCoords, " ")))
  }

  /** With one letter per answer, a sent payload spells the solution word,
      ignoring case, even though it pads missing letters with blanks. */
  lemma SentWordIsSolution(p: Puzzle, m: AnswerMap, contact: Contact)
    requires AtMostOneChar(m, SolutionCoords)
    requires Submit(p, m, contact).Send?
    ensures Upper(Submit(p, m, contact).payload.solutionWord) == SolutionWord
  {
    assert NoSpace(SolutionWord) by {
      assert forall i :: 0 <= i < |SolutionWord| ==> SolutionWord[i] != ' ';
    }
    SpacePaddingAgrees(m, SolutionCoords, SolutionWord);
  }

  /** Every answer the page stores is at most one character, so in a
      session that starts from nothing stored and only ever receives input
      the filter lets through, the solution points hold at most one
      character each. */
  predicate FilteredEvent(e: Event) {
    e.Typed? ==> e.value == "" || (|e.value| == 1 && IsAsciiLetter(e.value[0]))
  }

  lemma {:induction false} FilteredRunWellFormed(p: Puzzle, s: Session, es: seq<Event>)
    requires s.Valid() && WellFormed(s.answers)
    requires forall i :: 0 <= i < |es| ==> FilteredEvent(es[i])
    ensures WellFormed(Run(p, s, es).answers)
    ensures AtMostOneChar(Run(p, s, es).answers, SolutionCoords)
    decreases |es|
  {
    if es != [] {
      var s1 := Step(p, s, es[0]);
      assert FilteredEvent(es[0]);
      if es[0].Typed? && s.focus.Some? {
        OnInputKeepsWellFormed(s.answers, s.focus.value, es[0].value);
      }
      assert WellFormed(s1.answers);
      assert forall i :: 0 <= i < |es[1..]| ==> FilteredEvent(es[1..][i]) by {
        forall i | 0 <= i < |es[1..]| ensures FilteredEvent(es[1..][i]) {
          assert es[1..][i] == es[i + 1];
        }
      }
      FilteredRunWellFormed(p, s1, es[1..]);
    }
  }

  /** After the check button the submit button is enabled exactly when the
      solution word is right; the clear button always disables it. */
  lemma CheckThenClear(p: Puzzle, s: Session)
    requires s.Valid()
    ensures Step(p, s, CheckClicked).submitEnabled <==> CheckSolutionWord(s.answers)
    ensures !Step(p, Step(p, s, CheckClicked), ClearClicked(true)).submitEnabled
    ensures !CheckSolutionWord(Step(p, Step(p, s, CheckClicked), ClearClicked(true)).answers)
  {
    var r := Step(p, Step(p, s, CheckClicked), ClearClicked(true));
    assert Attempt(r.answers, SolutionCoords, "") == "" by {
      EmptyAttempt(SolutionCoords);
    }
  }

  lemma {:induction false} EmptyAttempt(coords: seq<Coord>)
    ensures Attempt(map[], coords, "") == ""
    decreases |coords|
  {
    if coords != [] {
      EmptyAttempt(coords[1..]);
    }
  }
}

=== FILE: text.dfy ===
/** String primitives the crossword code takes from JavaScript: ASCII case
    mapping (`toUpperCase`, `toLowerCase`), the `[A-Za-z]` letter class and
    `String.prototype.trim`. */
module Text {

  predicate IsUpperAscii(c: char) { 'A' <= c <= 'Z' }

  predicate IsLowerAscii(c: char) { 'a' <= c <= 'z' }

  /** The character class `[A-Za-z]`. */
  predicate IsAsciiLetter(c: char) { IsUpperAscii(c) || IsLowerAscii(c) }

  /** `toUpperCase` on one character, restricted to ASCII: a lower-case
      letter becomes the upper-case letter at the same place in the
      alphabet. */
  function UpperChar(c: char): (r: char)
    ensures !IsLowerAscii(r)
    ensures IsAsciiLetter(r) <==> IsAsciiLetter(c)
    ensures IsLowerAscii(c) ==> IsUpperAscii(r) && r as int - 'A' as int == c as int - 'a' as int
    ensures !IsLowerAscii(c) ==> r == c
  {
    if IsLowerAscii(c) then (c as int - 32) as char else c
  }

  /** `toLowerCase` on one character, restricted to ASCII: an upper-case
      letter becomes the lower-case letter at the same place in the
      alphabet. */
  function LowerChar(c: char): (r: char)
    ensures !IsUpperAscii(r)
    ensures IsAsciiLetter(r) <==> IsAsciiLetter(c)
    ensures IsUpperAscii(c) ==> IsLowerAscii(r) && r as int - 'a' as int == c as int - 'A' as int
    ensures !IsUpperAscii(c) ==> r == c
  {
    if IsUpperAscii(c) then (c as int + 32) as char else c
  }

  /** The two case mappings undo each other on letters, so two characters
      agree ignoring case exactly when their upper-case forms are equal. */
  lemma CaseInverse(c: char)
    ensures IsLowerAscii(c) ==> LowerChar(UpperChar(c)) == c
    ensures IsUpperAscii(c) ==> UpperChar(LowerChar(c)) == c
    ensures LowerChar(UpperChar(c)) == LowerChar(c) && UpperChar(LowerChar(c)) == UpperChar(c)
  {
  }

  function Upper(s: string): (r: string)
    ensures |r| == |s|
    ensures forall i :: 0 <= i < |s| ==> r[i] == UpperChar(s[i])
  {
    if s == [] then [] else [UpperChar(s[0])] + Upper(s[1..])
  }

  function Lower(s: string): (r: string)
    ensures |r| == |s|
    ensures forall i :: 0 <= i < |s| ==> r[i] == LowerChar(s[i])
  {
    if s == [] then [] else [LowerChar(s[0])] + Lower(s[1..])
  }

  /** No character of `s` is a lower-case ASCII letter. */
  predicate IsUpperCased(s: string) {
    forall i :: 0 <= i < |s| ==> !IsLowerAscii(s[i])
  }

  /** No character of `s` is an upper-case ASCII letter. */
  predicate IsLowerCased(s: string) {
    forall i :: 0 <= i < |s| ==> !IsUpperAscii(s[i])
  }

  lemma UpperIsUpperCased(s: string)
    ensures IsUpperCased(Upper(s))
  {
  }

  /** Upper-casing twice is upper-casing once. */
  lemma UpperIdempotent(s: string)
    ensures Upper(Upper(s)) == Upper(s)
  {
  }

  /** Lower-casing twice is lower-casing once: the rate limiter lower-cases an
      e-mail address that its caller has already lower-cased. */
  lemma LowerIdempotent(s: string)
    ensures Lower(Lower(s)) == Lower(s)
  {
  }

  /** Upper-casing distributes over concatenation. */
  lemma UpperAppend(a: string, b: string)
    ensures Upper(a + b) == Upper(a) + Upper(b)
  {
  }

  /** The characters `trim` removes: the ASCII white space characters, the
      no-break space, the byte order mark and the two Unicode line
      terminators. */
  predicate IsSpace(c: char) {
    c == ' ' || c == '\t' || c == '\n' || c == '\r' || c == '\U{0B}' || c == '\U{0C}'
    || c == '\U{A0}' || c == '\U{FEFF}' || c == '\U{2028}' || c == '\U{2029}'
  }

  /** Every character of `s` is white space, so `s.trim() === ''`. */
  predicate IsBlank(s: string) {
    forall i :: 0 <= i < |s| ==> IsSpace(s[i])
  }

  function TrimStart(s: string): (r: string)
    ensures |r| <= |s| && r == s[|s| - |r|..]
    ensures r == [] || !IsSpace(r[0])
    ensures IsBlank(s[..|s| - |r|])
  {
    if s == [] || !IsSpace(s[0]) then s
    else
      var r := TrimStart(s[1..]);
      BlankBefore(s, r);
      r
  }

  function TrimEnd(s: string): (r: string)
    ensures |r| <= |s| && r == s[..|r|]
    ensures r == [] || !IsSpace(r[|r| - 1])
    ensures IsBlank(s[|r|..])
  {
    if s == [] || !IsSpace(s[|s| - 1]) then s
    else
      var r := TrimEnd(s[..|s| - 1]);
      BlankAfter(s, r);
      r
  }

  /** A blank first character joins the blank run before the rest's
      trimmed suffix. */
  lemma BlankBefore(s: string, r: string)
    requires s != [] && IsSpace(s[0])
    requires |r| <= |s| - 1 && r == s[1..][|s| - 1 - |r|..] && IsBlank(s[1..][..|s| - 1 - |r|])
    ensures r == s[|s| - |r|..] && IsBlank(s[..|s| - |r|])
  {
    forall i | 0 <= i < |s| - |r| ensures IsSpace(s[i]) {
      if i > 0 {
        assert s[i] == s[1..][..|s| - 1 - |r|][i - 1];
      }
    }
  }

  /** A blank last character joins the blank run after the rest's trimmed
      prefix. */
  lemma BlankAfter(s: string, r: string)
    requires s != [] && IsSpace(s[|s| - 1])
    requires |r| <= |s| - 1 && r == s[..|s| - 1][..|r|] && IsBlank(s[..|s| - 1][|r|..])
    ensures r == s[..|r|] && IsBlank(s[|r|..])
  {
    forall i | |r| <= i < |s| ensures IsSpace(s[i]) {
      if i < |s| - 1 {
        assert s[i] == s[..|s| - 1][|r|..][i - |r|];
      }
    }
  }

  /** `String.prototype.trim`: the longest infix of `s` that neither starts
      nor ends with white space, once the white space around it is gone. */
  function Trim(s: string): (r: string)
    ensures |r| <= |s|
    ensures r == [] || (!IsSpace(r[0]) && !IsSpace(r[|r| - 1]))
    ensures r == [] <==> IsBlank(s)
    ensures exists a :: BlankPadded(s, r, a)
  {
    var t := TrimStart(s);
    var r := TrimEnd(t);
    TrimBlank(s, t, r);
    r
  }

  /** `r` occurs in `s` at offset `a`, with only white space before and
      after it. */
  predicate BlankPadded(s: string, r: string, a: int) {
    0 <= a && a + |r| <= |s| && r == s[a..a + |r|] && IsBlank(s[..a]) && IsBlank(s[a + |r|..])
  }

  /** The trimmed infix sits in the string between two blank stretches,
      starts and ends with a non-space, and is empty exactly when the
      whole string is blank. */
  lemma TrimBlank(s: string, t: string, r: string)
    requires |t| <= |s| && t == s[|s| - |t|..] && IsBlank(s[..|s| - |t|])
    requires t == [] || !IsSpace(t[0])
    requires |r| <= |t| && r == t[..|r|] && IsBlank(t[|r|..])
    requires r == [] || !IsSpace(r[|r| - 1])
    ensures |r| <= |s|
    ensures r == [] || (!IsSpace(r[0]) && !IsSpace(r[|r| - 1]))
    ensures r == [] <==> IsBlank(s)
    ensures exists a :: BlankPadded(s, r, a)
  {
    var a := |s| - |t|;
    assert s[a + |r|..] == t[|r|..];
    assert r == s[a..a + |r|];
    assert BlankPadded(s, r, a);
    if r == [] {
      assert t == t[|r|..];
      assert t == [];
      assert s[..a] == s;
    } else {
      assert r[0] == t[0];
      assert s[a] == t[0];
    }
  }

  /** Lower-casing leaves white space white space and everything else not. */
  lemma LowerKeepsSpace(c: char)
    ensures IsSpace(LowerChar(c)) == IsSpace(c)
  {
  }

  lemma {:induction false} LowerTrimStart(s: string)
    ensures Lower(TrimStart(s)) == TrimStart(Lower(s))
    decreases |s|
  {
    if s != [] {
      LowerKeepsSpace(s[0]);
      if IsSpace(s[0]) {
        assert Lower(s)[1..] == Lower(s[1..]);
        LowerTrimStart(s[1..]);
      }
    }
  }

  lemma {:induction false} LowerTrimEnd(s: string)
    ensures Lower(TrimEnd(s)) == TrimEnd(Lower(s))
    decreases |s|
  {
    if s != [] {
      var n := |s| - 1;
      var l := Lower(s);
      assert l[n] == LowerChar(s[n]);
      LowerKeepsSpace(s[n]);
      if IsSpace(s[n]) {
        assert TrimEnd(s) == TrimEnd(s[..n]);
        assert TrimEnd(l) == TrimEnd(l[..n]);
        assert l[..n] == Lower(s[..n]);
        LowerTrimEnd(s[..n]);
      } else {
        assert TrimEnd(s) == s;
        assert TrimEnd(l) == l;
      }
    }
  }

  /** Trimming and lower-casing commute. */
  lemma LowerTrim(s: string)
    ensures Lower(Trim(s)) == Trim(Lower(s))
  {
    LowerTrimStart(s);
    LowerTrimEnd(TrimStart(s));
  }

  /** Trimming a trimmed string changes nothing. */
  lemma TrimIdempotent(s: string)
    ensures Trim(Trim(s)) == Trim(s)
  {
    var r := Trim(s);
    assert TrimStart(r) == r;
    assert TrimEnd(r) == r;
  }
}

=== FILE: wrappers.dfy ===
/** The optional value used wherever the page code has `null` or
    `undefined`. */
module Wrappers {

  datatype Option<+T> = None | Some(value: T)
}
